=== FILE: README.md ===
# Gapless player core, modelled in Dafny

This project models the playback core of the gapless audio player
`CustomPlayer`. The player runs on a background worker and plays a list of
compressed audio assets back to back. For each asset it:

- advances to the asset's extractor, adopting the look-ahead extractor when one was pre-opened;
- creates and starts a decoder for the asset's track;
- maps the track's channel count to an output layout;
- builds the streaming audio sink, on the first asset only;
- runs the decode loop, which feeds samples in, drains PCM out to the sink, and pre-opens the next asset's extractor once the current one has cached to its end;
- releases the decoder and folds the asset's positions into the running totals.

Every way out of the session goes through one cleanup that releases whatever is still held.

The model is pure and immutable:

- `JavaInt` gives Java's `int`/`long` wrap-around and its truncating `/`.
- `AudioFormat` gives the channel-count switch (with the platform's speaker masks) and the buffer sizing, computed with the same casts as `CustomPlayer`.
- `PlayerState` holds the state record. Extractors and decoders are opaque handles tagged with the index of the asset they were opened for. The sink records the sample rate, layout and buffer size it was constructed with. An effect log records the interactions that change what the player holds or sends out:
  - opening and releasing an extractor;
  - creating, configuring and starting a decoder (one effect), and stopping and releasing it (one effect);
  - constructing and starting the sink (one effect), and releasing it;
  - queueing an input buffer and advancing the extractor;
  - writing to the sink and setting its playback rate.

  The resource accounting (acquired, released, live) is read off this log. Queries and buffer bookkeeping are not logged: the dequeue calls, `readSampleData`, `getSampleTime`, `hasCacheReachedEndOfStream` and `releaseOutputBuffer`.
- `Extractors` covers the two asset-sequencing steps.
- `DecodeLoop` covers one pass of the inner loop and the loop itself.
- `Session` covers the per-asset setup, the end-of-asset step, the outer loop and the `finally` cleanup.

The platform's answers are inputs, supplied as finite scripts:

- `isCancelled()` at each guard;
- whether opening an asset succeeds;
- `getMinBufferSize`;
- the decoder's input and output answers;
- whether the extractor's cache has reached its end.

When a script runs out while the player would go on, the result says so (`Unfinished`, `OutOfTicks`). That result then describes only a prefix of the run.

Behaviours of `CustomPlayer` that the model keeps as written:

- The decoder is created, configured and started (CustomPlayer.java lines 142-144) before the channel-count switch (lines 148-164). An unsupported count therefore throws while the new decoder is held, and the `finally` cleanup (lines 290-292) releases it.
- The track count only feeds a log line (line 131). Track 0 is always selected and read (lines 89 and 132), so an asset with several tracks is not rejected.
- The sink is built only while none exists (line 166). It is reused for every later asset without being reconfigured, even when a later asset's format differs.
- A failed open of the look-ahead extractor (line 100) throws an `IOException` from inside the decode loop. The catch at line 288 turns it into the end of the whole session, not just of the current asset: in the model, `LoopThrew` ends the session with `IoFailure`.

## Model

| member | source | states |
|---|---|---|
| JavaInt.ToInt32 | app/src/main/java/com/wunderweiss/gaplessplayertest/CustomPlayer.java:171-174 | The `int` a cast or `int` product keeps is congruent to the exact value modulo 2^32 and equals it when it fits |
| JavaInt.ToInt64 | app/src/main/java/com/wunderweiss/gaplessplayertest/CustomPlayer.java:316-318 | The `long` a product keeps is congruent to the exact value modulo 2^64 and equals it when it fits |
| JavaInt.Quot | app/src/main/java/com/wunderweiss/gaplessplayertest/CustomPlayer.java:316-318 | Java's `/` leaves a remainder smaller than the divisor with the sign of the dividend; on non-negative operands it is floor division |
| AudioFormat.ChannelConfig | app/src/main/java/com/wunderweiss/gaplessplayertest/CustomPlayer.java:148-164 | A layout is chosen exactly for counts 1, 2, 6 and 8; every other count is the unsupported-count error carrying that count |
| AudioFormat.ChannelConfigSpeakers | app/src/main/java/com/wunderweiss/gaplessplayertest/CustomPlayer.java:148-161 | The speaker mask chosen for a supported count names exactly that many speakers (MONO, STEREO, 5POINT1, 7POINT1) |
| AudioFormat.ChannelConfigInjective | app/src/main/java/com/wunderweiss/gaplessplayertest/CustomPlayer.java:148-161 | The four supported counts map to four distinct layouts |
| AudioFormat.DurationUsToFrames | app/src/main/java/com/wunderweiss/gaplessplayertest/CustomPlayer.java:316-318 | Computed as in CustomPlayer, with the product wrapped by `JavaInt.ToInt64` and divided by `JavaInt.Quot`; without `long` overflow, the frame count is the floor of duration × rate / 10^6 and is non-negative |
| AudioFormat.DurationUsToFramesMonotone | app/src/main/java/com/wunderweiss/gaplessplayertest/CustomPlayer.java:316-318 | A longer duration never gives fewer frames |
| AudioFormat.SizeAudioBuffer | app/src/main/java/com/wunderweiss/gaplessplayertest/CustomPlayer.java:169-177 | The multiplied size is the `int`-wrapped product of the platform minimum and 4; below the window the size is its lower bound, above it the upper bound, and inside it the multiplied size; whenever the window is non-empty the size lies in it, and it equals the multiplied size exactly when that is in the window |
| AudioFormat.BufferSizeWithinWindow | app/src/main/java/com/wunderweiss/gaplessplayertest/CustomPlayer.java:169-177 | For supported counts the window is 250 ms to max(platform minimum, 750 ms) of frames and is never empty, and the size lies in it; when 4 × minimum fits in an `int`, the size is the lower bound below the window, the upper bound above it, and 4 × minimum exactly when that product is in range |
| AudioFormat.AppWindowExact | app/src/main/java/com/wunderweiss/gaplessplayertest/CustomPlayer.java:172-174 | Under the rate bound the window's casts do not wrap, and the 250 ms bound lies below the 750 ms frame bound |
| AudioFormat.CdStereoWindow | app/src/main/java/com/wunderweiss/gaplessplayertest/CustomPlayer.java:169-177 | At 44100 Hz stereo the window opens at 11025 frames × 4 bytes and closes at max(minimum, 33075 × 4), with the size inside |
| AudioFormat.CdStereoClamps | app/src/main/java/com/wunderweiss/gaplessplayertest/CustomPlayer.java:175-177 | At 44100 Hz stereo a platform minimum of 1 gives the 250 ms bound 11025 × 4, a minimum of 100000 gives the 750 ms bound 33075 × 4, and a minimum of 20000 is taken fourfold |
| PlayerState.Initial | app/src/main/java/com/wunderweiss/gaplessplayertest/CustomPlayer.java:31-41 | The fresh player holds no handle, has selected no asset, and satisfies the handle invariant and the resource balance |
| PlayerState.AbsoluteExtractedPositionUs | app/src/main/java/com/wunderweiss/gaplessplayertest/CustomPlayer.java:112-114 | The absolute extracted position equals the accumulated total at an asset boundary and is never behind it while the offset is non-negative |
| PlayerState.AbsoluteDecodedPositionUs | app/src/main/java/com/wunderweiss/gaplessplayertest/CustomPlayer.java:116-118 | The absolute decoded position equals the accumulated total at an asset boundary and is never behind it while the offset is non-negative |
| PlayerState.FoldPositions | app/src/main/java/com/wunderweiss/gaplessplayertest/CustomPlayer.java:282-285 | The fold keeps both absolute positions, zeroes both offsets, and does not lower a total when the offset is non-negative |
| PlayerState.ReleaseResources | app/src/main/java/com/wunderweiss/gaplessplayertest/CustomPlayer.java:295-314 | The cleanup leaves extractor, look-ahead, decoder and sink all null, keeps the positions and the handle invariant, and only extends the log |
| PlayerState.ReleaseResourcesReleasesEachHandleOnce | app/src/main/java/com/wunderweiss/gaplessplayertest/CustomPlayer.java:295-314 | The cleanup releases each held handle exactly once and acquires nothing, so it restores the balance of every resource kind |
| PlayerState.ReleaseResourcesReleasesCodec | app/src/main/java/com/wunderweiss/gaplessplayertest/CustomPlayer.java:304-308 | A decoder still held at cleanup is stopped and released by it |
| PlayerState.ReleaseResourcesOnlyReleases | app/src/main/java/com/wunderweiss/gaplessplayertest/CustomPlayer.java:295-314 | Every effect the cleanup adds is a release |
| Extractors.InitNextExtractor | app/src/main/java/com/wunderweiss/gaplessplayertest/CustomPlayer.java:58-80 | The previous extractor is always released and the index always advances by one; it succeeds iff the new index is in range and the asset is available; a pending look-ahead is adopted rather than reopened and is null afterwards |
| Extractors.InitNextExtractorKeepsInvariants | app/src/main/java/com/wunderweiss/gaplessplayertest/CustomPlayer.java:58-80 | With no decoder held, advancing keeps the handle invariant, and it neither leaks nor loses an extractor |
| Extractors.TryPreloadNextExtractor | app/src/main/java/com/wunderweiss/gaplessplayertest/CustomPlayer.java:93-102 | Nothing changes with a pending look-ahead or no current extractor; a look-ahead is opened iff the current asset is not the last and its cache reached end of stream, and only for the next index; a failed open throws with the state unchanged |
| Extractors.TryPreloadKeepsInvariants | app/src/main/java/com/wunderweiss/gaplessplayertest/CustomPlayer.java:93-102 | The preload keeps the handle invariant, so the look-ahead is unique and always for the next asset, and it neither leaks nor releases |
| DecodeLoop.FeedInput | app/src/main/java/com/wunderweiss/gaplessplayertest/CustomPlayer.java:200-225 | After input end of stream nothing is read; end of stream queues an empty flagged buffer at time 0 and keeps the extracted position; a sample is queued, the extractor advances, and the position becomes the sample time |
| DecodeLoop.Begin | app/src/main/java/com/wunderweiss/gaplessplayertest/CustomPlayer.java:193-196 | Each asset's loop starts at counter zero with neither end of stream seen, so its guard holds before the first pass |
| DecodeLoop.DrainOutput | app/src/main/java/com/wunderweiss/gaplessplayertest/CustomPlayer.java:231-273 | Only non-empty output reaches the sink and resets the counter; the decoded position follows the output time; a flagged buffer ends the output; a format change passes the rate to the sink |
| DecodeLoop.PositionsFollowReportedTimes | app/src/main/java/com/wunderweiss/gaplessplayertest/CustomPlayer.java:211-234 | After a pass that queued a sample, the absolute extracted position is the accumulated total plus that sample's time; after a pass that dequeued an output buffer, the absolute decoded position is the total plus that buffer's time; both hold also when the pass's preload throws |
| DecodeLoop.Step | app/src/main/java/com/wunderweiss/gaplessplayertest/CustomPlayer.java:198-276 | A pass raises the counter by one unless it produced audio, when it resets it to zero; the end-of-stream flags only turn on; the pass logs exactly, in order, the queued sample and the advance (or, at input end of stream, the flagged empty buffer alone) while input is open and a buffer is free, then the write of a non-empty output buffer or the rate of a format change, then the look-ahead open when the preload opens one, and nothing else; these effects are logged even when the preload throws; the extracted position becomes the sample time and the decoded position the output time; the pass throws exactly when no look-ahead is pending, an extractor is held, the asset is not the last, its cache reached the end and the open fails |
| DecodeLoop.StepWritesOnlyAudio | app/src/main/java/com/wunderweiss/gaplessplayertest/CustomPlayer.java:240-248 | A pass writes to the sink only the bytes of a non-empty output buffer, and writes them whenever there is one |
| DecodeLoop.StepKeeps | app/src/main/java/com/wunderweiss/gaplessplayertest/CustomPlayer.java:198-276 | A pass keeps the asset's handles, totals, handle invariant and resource balance, writes no empty buffer, releases nothing, and after input end of stream reads nothing |
| DecodeLoop.StepAfterInputEnd | app/src/main/java/com/wunderweiss/gaplessplayertest/CustomPlayer.java:200-225 | Once input end of stream was seen, a pass queues and advances nothing and keeps the extracted position |
| DecodeLoop.RunLoop | app/src/main/java/com/wunderweiss/gaplessplayertest/CustomPlayer.java:193-276 | The loop exits only on output end of stream, on the counter reaching 50, or on cancellation, which it observes at the first cancelled tick, no earlier tick being cancelled; it runs at most one pass per tick, and it runs out of script only after one pass for every tick, none cancelled; the counter stays in [0, 50]; input end of stream stays seen |
| DecodeLoop.RunLoopKeeps | app/src/main/java/com/wunderweiss/gaplessplayertest/CustomPlayer.java:198-276 | The whole loop keeps what each pass keeps: same handles and totals, no empty write, no release, balance unchanged |
| DecodeLoop.RunLoopOffsetsStayNonNegative | app/src/main/java/com/wunderweiss/gaplessplayertest/CustomPlayer.java:198-276 | With non-negative reported times both per-asset offsets stay non-negative |
| DecodeLoop.StarvationStopsLoop | app/src/main/java/com/wunderweiss/gaplessplayertest/CustomPlayer.java:193-238 | From counter c, a decoder giving no audio and no end of stream, without cancellation and with no failing look-ahead open, stops the loop as starved after exactly 50 − c passes |
| DecodeLoop.SilentDecoderStopsAfterLimit | app/src/main/java/com/wunderweiss/gaplessplayertest/CustomPlayer.java:193-199 | A fresh loop under a decoder giving no audio and no end of stream, without cancellation and with no failing look-ahead open, stops as starved after exactly 50 passes |
| DecodeLoop.OutputEndStopsLoop | app/src/main/java/com/wunderweiss/gaplessplayertest/CustomPlayer.java:198-253 | While every pass yields audio without end of stream, is not cancelled and has no failing look-ahead open, the loop keeps running; the first such pass whose output buffer carries end of stream ends the loop right after it, as OutputEnded, after exactly that many passes |
| DecodeLoop.SilenceBoundsPasses | app/src/main/java/com/wunderweiss/gaplessplayertest/CustomPlayer.java:193-199 | From counter c, a decoder that never yields audio lets the loop run at most 50 − c passes, whatever else the script answers, and a script of 50 − c ticks or more is enough for the loop to stop rather than run out |
| Session.SetupAsset | app/src/main/java/com/wunderweiss/gaplessplayertest/CustomPlayer.java:142-191 | The decoder is started first and is held either way; an unsupported count throws with no sink touched; a supported count builds the sink from this asset's format only when none exists, otherwise keeps the existing one unchanged; setup acquires exactly one decoder, a sink only when it builds one, no extractor, and releases nothing |
| Session.UnsupportedChannelCountReleasesDecoder | app/src/main/java/com/wunderweiss/gaplessplayertest/CustomPlayer.java:142-164 | An unsupported count ends the session with that count after the decoder was started; everything after the start is a release, the decoder is among them, and nothing stays held |
| Session.FinishAsset | app/src/main/java/com/wunderweiss/gaplessplayertest/CustomPlayer.java:278-285 | The end of an asset releases the decoder, keeps both absolute positions, zeroes the offsets, and changes nothing else |
| Session.PlayRound | app/src/main/java/com/wunderweiss/gaplessplayertest/CustomPlayer.java:124-286 | A pass of the outer loop either continues at the next index without a decoder or ends the session holding nothing |
| Session.RunSession | app/src/main/java/com/wunderweiss/gaplessplayertest/CustomPlayer.java:120-293 | A session that ends, by whatever route, holds nothing at the end |
| Session.SessionReleasesEverything | app/src/main/java/com/wunderweiss/gaplessplayertest/CustomPlayer.java:120-293 | From a ready state, every handle acquired by an ended session has been released; at most one sink is ever built; the handle invariant holds; a sink held at the start is the one held while the session runs |
| Session.RoundKeeps | app/src/main/java/com/wunderweiss/gaplessplayertest/CustomPlayer.java:123-286 | One pass of the outer loop from a ready state either ends as above or returns to a ready state with the same sink |
| Session.SessionPositionsNeverDecrease | app/src/main/java/com/wunderweiss/gaplessplayertest/CustomPlayer.java:282-285 | With non-negative reported times the accumulated positions never decrease over a session |
| Session.SessionOneDecoderAtATime | app/src/main/java/com/wunderweiss/gaplessplayertest/CustomPlayer.java:278-280 | At no point of a session are two decoders outstanding, since each asset's decoder is released before the next is started |
| Session.PlayReleasesEverything | app/src/main/java/com/wunderweiss/gaplessplayertest/CustomPlayer.java:120-293 | From the fresh player: an ended session holds nothing and has released all it acquired; at most one sink is built; never two decoders at once; with non-negative times both totals are non-negative |
| Session.StopKeeps | app/src/main/java/com/wunderweiss/gaplessplayertest/CustomPlayer.java:288-292 | The `finally` cleanup keeps the positions and the handle invariant, builds no sink, and from a balanced state leaves every acquisition released |
| Session.Stop | app/src/main/java/com/wunderweiss/gaplessplayertest/CustomPlayer.java:288-292 | Every way out of the session ends with the given reason, holding no extractor, look-ahead, decoder or sink, with the log only extended and both absolute positions kept |

## Left out

- `getPlaybackPositionUs`: it is floating-point (a `double` division and `Math.round`) and only feeds log text, so it is not modelled.
- `L.java` and `MainActivity.java`: a logging wrapper and the UI shell are not part of this model.
- Log message text everywhere, and the track-count query that only feeds a log line.
- The mime type, the track duration and the asset's name: the mime type only selects the decoder (`createDecoderByType`, line 142) and the duration only feeds a log line (line 139), so the model's track format carries just the sample rate and channel count.
- `ByteBuffer` copying and clearing, and the refresh of the input and output buffer arrays: the model records only the byte count written to the sink.
- `releaseOutputBuffer` (line 249) and the dequeue and read queries: they hand buffers back to the decoder and are not logged as effects.
- A negative `BufferInfo.size`: the model's output size is a natural number, since the platform reports non-negative sizes. With a negative size, the array allocation at line 242 would throw.
- Threading: `isCancelled()` is an input read at each of the two guards. The interruption of `cancel(true)` is not modelled.
- File-descriptor I/O in `initExtractor`: opening an asset is an input that either yields a handle or throws `IOException`. A `MediaExtractor` that is constructed and then leaked because `setDataSource` throws is not modelled.
- `createDecoderByType` and `configure` failures: decoder creation is assumed to succeed. An `IOException` there would take the same route to the cleanup as a failed open.
- Errors from the `AudioTrack` constructor and `play()` are not modelled.
- The real `getMinBufferSize`: it is an input of each round.
- AudioFormat.BufferSizeWithinWindow: requires a sample rate of at most 178956970 Hz so that none of the `int` casts wraps. Above that bound only the clamp stated by `SizeAudioBuffer` is proved, and it is computed with the wrapping casts.
- Session.SessionPositionsNeverDecrease: positions are unbounded integers, so overflow of the `long` totals is not modelled.
- Session.PlayReleasesEverything: a run whose script ends while the player would go on (`Unfinished`) is a prefix of a session, and nothing is claimed about releasing its handles.

=== FILE: audio_format.dfy ===
/**
  The player's audio-format arithmetic: mapping a track's channel count to an
  output channel layout, and sizing the streaming sink's buffer from the
  platform's minimum, a headroom multiplier and an application window of
  250 ms to 750 ms of 16-bit PCM.
 */
module AudioFormat {
  import opened JavaInt

  /** Headroom applied to the platform's minimum buffer size. */
  const BUFFER_MULTIPLICATION_FACTOR: int := 4
  /** Smallest buffer the player accepts, in microseconds of audio. */
  const MIN_BUFFER_DURATION_US: int64 := 250000
  /** Largest buffer the player accepts, in microseconds of audio. */
  const MAX_BUFFER_DURATION_US: int64 := 750000
  const MICROS_PER_SECOND: int := 1000000
  /** Bytes per sample of ENCODING_PCM_16BIT. */
  const BYTES_PER_SAMPLE: int := 2

  /**
    The largest sample rate for which none of the `int` casts and products of
    the buffer sizing wraps around, whatever the supported channel count:
    750 ms of it is 134217727 frames, and 16 bytes per frame stay below 2^31.
   */
  const MAX_EXACT_SAMPLE_RATE: int := 178956970

  /** The four output layouts the player can drive. */
  datatype ChannelLayout = Mono | Stereo | FivePointOne | SevenPointOne {
    /** The platform's CHANNEL_OUT_* speaker mask for this layout. */
    function Mask(): nat {
      match this
      case Mono => 0x4
      case Stereo => 0xC
      case FivePointOne => 0xFC
      case SevenPointOne => 0x3FC
    }
  }

  /** Number of speakers named in a speaker mask (its population count). */
  function Speakers(mask: nat): nat
    decreases mask
  {
    if mask == 0 then 0 else mask % 2 + Speakers(mask / 2)
  }

  datatype LayoutChoice = Layout(layout: ChannelLayout) | Unsupported(channelCount: int32)

  predicate SupportedChannelCount(channelCount: int) {
    channelCount == 1 || channelCount == 2 || channelCount == 6 || channelCount == 8
  }

  /**
    The channel-count switch of the per-asset setup. A supported count yields
    a layout (with exactly that many speakers, see ChannelConfigSpeakers);
    every other count is the IllegalArgumentException case, carrying the
    offending count.
   */
  function ChannelConfig(channelCount: int32): (r: LayoutChoice)
    ensures r.Layout? <==> SupportedChannelCount(channelCount)
    ensures r.Unsupported? ==> r.channelCount == channelCount
  {
    match channelCount
    case 1 => Layout(Mono)
    case 2 => Layout(Stereo)
    case 6 => Layout(FivePointOne)
    case 8 => Layout(SevenPointOne)
    case _ => Unsupported(channelCount)
  }

  /** The layout chosen for a supported count drives exactly that many speakers. */
  lemma ChannelConfigSpeakers(channelCount: int32)
    requires SupportedChannelCount(channelCount)
    ensures Speakers(ChannelConfig(channelCount).layout.Mask()) == channelCount
  {
    StereoMaskSpeakers();
    SurroundMaskSpeakers();
  }

  lemma StereoMaskSpeakers()
    ensures Speakers(0x4) == 1 && Speakers(0xC) == 2
  {
    assert Speakers(1) == 1;
    assert Speakers(3) == 2;
    assert Speakers(0x4) == 1 by { assert Speakers(2) == 1; }
    assert Speakers(0xC) == 2 by { assert Speakers(6) == 2; }
  }

  lemma SurroundMaskSpeakers()
    ensures Speakers(0xFC) == 6 && Speakers(0x3FC) == 8
  {
    assert Speakers(7) == 3 by { assert Speakers(3) == 2; }
    assert Speakers(0x3F) == 6 by {
      assert Speakers(15) == 4;
      assert Speakers(31) == 5;
    }
    assert Speakers(0xFC) == 6 by { assert Speakers(0x7E) == 6; }
    assert Speakers(0xFF) == 8 by { assert Speakers(0x7F) == 7; }
    assert Speakers(0x3FC) == 8 by { assert Speakers(0x1FE) == 8; }
  }

  /** Distinct supported counts get distinct layouts, so no two counts share an output. */
  lemma ChannelConfigInjective(a: int32, b: int32)
    requires ChannelConfig(a).Layout? && ChannelConfig(b).Layout?
    ensures ChannelConfig(a) == ChannelConfig(b) <==> a == b
  {
    ChannelConfigSpeakers(a);
    ChannelConfigSpeakers(b);
  }

  /**
    Frames of audio in `durationUs` microseconds at `sampleRate`, computed as
    CustomPlayer does: a `long` product divided, truncating, by one million.
   */
  function DurationUsToFrames(durationUs: int64, sampleRate: int32): (frames: int64)
    ensures 0 <= durationUs && 0 <= sampleRate && IsInt64(durationUs * sampleRate) ==>
              frames >= 0
              && frames * MICROS_PER_SECOND <= durationUs * sampleRate
              && durationUs * sampleRate < (frames + 1) * MICROS_PER_SECOND
  {
    var product := durationUs * sampleRate;
    var frames := Quot(ToInt64(product), MICROS_PER_SECOND);
    if 0 <= durationUs && 0 <= sampleRate && IsInt64(product) then
      MulNonNegative(durationUs, sampleRate);
      FloorBounds(product, MICROS_PER_SECOND);
      frames
    else
      frames
  }

  lemma MulNonNegative(a: int, b: int)
    requires 0 <= a && 0 <= b
    ensures 0 <= a * b
  {
  }

  lemma MulMonotone(a: int, b: int, c: int)
    requires a <= b && 0 <= c
    ensures a * c <= b * c
  {
    MulNonNegative(b - a, c);
    assert b * c - a * c == (b - a) * c;
  }

  lemma FloorBounds(p: int, d: int)
    requires 0 <= p && 0 < d
    ensures 0 <= p / d
    ensures (p / d) * d <= p < (p / d + 1) * d
  {
  }

  /** Longer durations never give fewer frames. */
  lemma DurationUsToFramesMonotone(d1: int64, d2: int64, sampleRate: int32)
    requires 0 <= d1 <= d2 && 0 <= sampleRate && IsInt64(d2 * sampleRate)
    ensures DurationUsToFrames(d1, sampleRate) <= DurationUsToFrames(d2, sampleRate)
  {
    MulMonotone(d1, d2, sampleRate);
    MulNonNegative(d1, sampleRate);
    var f1 := DurationUsToFrames(d1, sampleRate);
    var f2 := DurationUsToFrames(d2, sampleRate);
    assert f1 * MICROS_PER_SECOND < (f2 + 1) * MICROS_PER_SECOND;
    if f1 > f2 {
      MulMonotone(f2 + 1, f1, MICROS_PER_SECOND);
    }
  }

  /** The quantities the sink sizing computes, named as in CustomPlayer. */
  datatype BufferSizes = BufferSizes(
    minBufferSize: int32,
    multipliedBufferSize: int32,
    minAppBufferSize: int32,
    maxAppBufferSize: int32,
    bufferSize: int32)

  /**
    Sizing of the sink's buffer for 16-bit PCM, with Java's `int` casts and
    products wrapping as they do in CustomPlayer. The chosen size is the
    multiplied platform minimum when it lies in the application window, and
    otherwise the window bound it overshoots.
   */
  function SizeAudioBuffer(sampleRate: int32, channelCount: int32, minBufferSize: int32): (s: BufferSizes)
    ensures s.minBufferSize == minBufferSize
    ensures s.multipliedBufferSize == ToInt32(minBufferSize * BUFFER_MULTIPLICATION_FACTOR)
    ensures s.multipliedBufferSize < s.minAppBufferSize ==> s.bufferSize == s.minAppBufferSize
    ensures s.minAppBufferSize <= s.multipliedBufferSize && s.multipliedBufferSize > s.maxAppBufferSize ==>
              s.bufferSize == s.maxAppBufferSize
    ensures s.minAppBufferSize <= s.multipliedBufferSize <= s.maxAppBufferSize ==>
              s.bufferSize == s.multipliedBufferSize
    ensures s.minAppBufferSize <= s.maxAppBufferSize ==>
              s.minAppBufferSize <= s.bufferSize <= s.maxAppBufferSize
              && (s.bufferSize == s.multipliedBufferSize
                  <==> s.minAppBufferSize <= s.multipliedBufferSize <= s.maxAppBufferSize)
  {
    var frameSize := ToInt32(BYTES_PER_SAMPLE * channelCount);
    var multiplied := ToInt32(minBufferSize * BUFFER_MULTIPLICATION_FACTOR);
    var minApp := ToInt32(ToInt32(DurationUsToFrames(MIN_BUFFER_DURATION_US, sampleRate)) * frameSize);
    var maxApp := ToInt32(Max(minBufferSize, ToInt64(DurationUsToFrames(MAX_BUFFER_DURATION_US, sampleRate) * frameSize)));
    var size :=
      if multiplied < minApp then minApp
      else if multiplied > maxApp then maxApp
      else multiplied;
    BufferSizes(minBufferSize, multiplied, minApp, maxApp, size)
  }

  lemma FramesBelowBound(durationUs: int64, sampleRate: int32)
    requires 0 <= durationUs <= MAX_BUFFER_DURATION_US
    requires 0 < sampleRate <= MAX_EXACT_SAMPLE_RATE
    ensures 0 <= DurationUsToFrames(durationUs, sampleRate) <= 134217727
  {
    MulMonotone(durationUs, 750000, sampleRate);
    MulMonotone(sampleRate, MAX_EXACT_SAMPLE_RATE, 750000);
    assert 750000 * MAX_EXACT_SAMPLE_RATE == 134217727500000;
    MulNonNegative(durationUs, sampleRate);
    var f := DurationUsToFrames(durationUs, sampleRate);
    assert f * MICROS_PER_SECOND <= 134217727500000;
    if f > 134217727 {
      MulMonotone(134217728, f, MICROS_PER_SECOND);
    }
  }

  /**
    For every supported channel count and every sample rate up to
    MAX_EXACT_SAMPLE_RATE no cast wraps: the window is 250 ms to
    max(platform minimum, 750 ms) of frames, it is never empty, the chosen size
    lies inside it, and when the multiplied minimum does not wrap either the
    size equals four times the platform minimum exactly when that product is
    already inside the window.
   */
  lemma BufferSizeWithinWindow(sampleRate: int32, channelCount: int32, minBufferSize: int32)
    requires 0 < sampleRate <= MAX_EXACT_SAMPLE_RATE
    requires SupportedChannelCount(channelCount)
    ensures var s := SizeAudioBuffer(sampleRate, channelCount, minBufferSize);
            var frameSize := BYTES_PER_SAMPLE * channelCount;
            && s.minAppBufferSize == DurationUsToFrames(MIN_BUFFER_DURATION_US, sampleRate) * frameSize
            && s.maxAppBufferSize == Max(minBufferSize, DurationUsToFrames(MAX_BUFFER_DURATION_US, sampleRate) * frameSize)
            && s.minAppBufferSize <= s.maxAppBufferSize
            && s.minAppBufferSize <= s.bufferSize <= s.maxAppBufferSize
            && (IsInt32(minBufferSize * BUFFER_MULTIPLICATION_FACTOR) ==>
                  var multiplied := minBufferSize * BUFFER_MULTIPLICATION_FACTOR;
                  && (multiplied < s.minAppBufferSize ==> s.bufferSize == s.minAppBufferSize)
                  && (multiplied > s.maxAppBufferSize ==> s.bufferSize == s.maxAppBufferSize)
                  && (s.bufferSize == multiplied <==> s.minAppBufferSize <= multiplied <= s.maxAppBufferSize))
  {
    var s := SizeAudioBuffer(sampleRate, channelCount, minBufferSize);
    AppWindowExact(sampleRate, channelCount, minBufferSize);
    if IsInt32(minBufferSize * BUFFER_MULTIPLICATION_FACTOR) {
      assert s.multipliedBufferSize == minBufferSize * BUFFER_MULTIPLICATION_FACTOR;
    }
  }

  /** Under the rate bound, the window bounds are the unwrapped products, and 250 ms fits under 750 ms. */
  lemma AppWindowExact(sampleRate: int32, channelCount: int32, minBufferSize: int32)
    requires 0 < sampleRate <= MAX_EXACT_SAMPLE_RATE
    requires SupportedChannelCount(channelCount)
    ensures var s := SizeAudioBuffer(sampleRate, channelCount, minBufferSize);
            var frameSize := BYTES_PER_SAMPLE * channelCount;
            && s.minAppBufferSize == DurationUsToFrames(MIN_BUFFER_DURATION_US, sampleRate) * frameSize
            && s.maxAppBufferSize == Max(minBufferSize, DurationUsToFrames(MAX_BUFFER_DURATION_US, sampleRate) * frameSize)
            && 0 <= s.minAppBufferSize <= DurationUsToFrames(MAX_BUFFER_DURATION_US, sampleRate) * frameSize
  {
    var frameSize := BYTES_PER_SAMPLE * channelCount;
    var fMin := DurationUsToFrames(MIN_BUFFER_DURATION_US, sampleRate);
    var fMax := DurationUsToFrames(MAX_BUFFER_DURATION_US, sampleRate);
    FramesBelowBound(MIN_BUFFER_DURATION_US, sampleRate);
    FramesBelowBound(MAX_BUFFER_DURATION_US, sampleRate);
    DurationUsToFramesMonotone(MIN_BUFFER_DURATION_US, MAX_BUFFER_DURATION_US, sampleRate);
    assert 2 <= frameSize <= 16;
    assert ToInt32(frameSize) == frameSize;
    MulNonNegative(fMin, frameSize);
    MulMonotone(fMin, fMax, frameSize);
    MulMonotone(fMax, 134217727, frameSize);
    MulMonotone(frameSize, 16, 134217727);
    assert IsInt32(fMin * frameSize) && IsInt32(fMax * frameSize);
  }

  /** The worked case of CD-quality stereo: the window opens at 250 ms = 44100 bytes. */
  lemma CdStereoWindow(minBufferSize: int32)
    ensures var s := SizeAudioBuffer(44100, 2, minBufferSize);
            && s.minAppBufferSize == 11025 * 4
            && s.maxAppBufferSize == Max(minBufferSize, 33075 * 4)
            && s.minAppBufferSize <= s.bufferSize <= s.maxAppBufferSize
  {
    BufferSizeWithinWindow(44100, 2, minBufferSize);
  }

  /**
    The two clamps at 44100 Hz stereo: a platform minimum whose fourfold lies
    below 250 ms gives the 250 ms bound, one whose fourfold lies above 750 ms
    gives the 750 ms bound, and one in between is taken fourfold.
   */
  lemma CdStereoClamps()
    ensures SizeAudioBuffer(44100, 2, 1).bufferSize == 11025 * 4
    ensures SizeAudioBuffer(44100, 2, 20000).bufferSize == 20000 * 4
    ensures SizeAudioBuffer(44100, 2, 100000).bufferSize == 33075 * 4
  {
    BufferSizeWithinWindow(44100, 2, 1);
    BufferSizeWithinWindow(44100, 2, 20000);
    BufferSizeWithinWindow(44100, 2, 100000);
  }
}

=== FILE: decode_loop.dfy ===
/**
  The per-asset decode loop, driven by a script of what the platform answers.
  Each iteration bumps the no-output counter, feeds one compressed sample (or
  the end-of-stream marker) to the decoder if an input buffer is free, drains
  one output buffer into the sink, and tries the look-ahead preload. The loop
  stops on output end of stream, when the counter reaches its limit, or when
  cancellation is observed at the top of an iteration.
 */
module DecodeLoop {
  import opened JavaInt
  import opened PlayerState
  import opened Extractors

  /** Iterations without a non-empty output buffer after which the asset is abandoned. */
  const NO_OUTPUT_COUNTER_LIMIT: int := 50

  /** What dequeueInputBuffer and then readSampleData/getSampleTime answered. */
  datatype InputProbe =
    | NoInputBuffer
      /** A free input buffer; a negative `sampleSize` is the extractor's end of stream. */
    | InputBuffer(sampleSize: int32, sampleTimeUs: int)

  /** What dequeueOutputBuffer answered. */
  datatype OutputProbe =
    | OutputBuffer(size: nat, presentationTimeUs: int, endOfStream: bool)
    | OutputBuffersChanged
    | OutputFormatChanged(sampleRate: int32)
    | TryAgainLater
    | OtherInfo

  /**
    The platform's answers for one pass of the loop: whether isCancelled()
    holds at the loop guard, the two probes, and for the preload whether the
    current extractor's cache has reached its end and whether opening succeeds.
   */
  datatype Tick = Tick(
    cancelled: bool,
    input: InputProbe,
    output: OutputProbe,
    cacheAtEnd: bool,
    preloadOpens: bool)

  datatype LoopState = LoopState(
    player: Player,
    sawInputEOS: bool,
    sawOutputEOS: bool,
    noOutputCounter: int)

  datatype StepResult = Next(state: LoopState) | StepThrew(player: Player)

  datatype Exit = OutputEnded | Starved | Cancelled

  datatype LoopOutcome =
      /** The loop guard failed for the given reason after `iterations` passes. */
    | Exited(state: LoopState, exit: Exit, iterations: nat)
      /** The preload's open failed: the IOException leaves the loop. */
    | LoopThrew(player: Player)
      /**
        The script ended after `iterations` passes, one per tick, while the
        loop would go on: only a prefix of the run was observed.
       */
    | OutOfTicks(state: LoopState, iterations: nat)
  {
    function Final(): Player {
      match this
      case Exited(s, _, _) => s.player
      case LoopThrew(p) => p
      case OutOfTicks(s, _) => s.player
    }
  }

  /** The loop's starting state for a freshly set-up asset. */
  function Begin(p: Player): (s: LoopState)
    ensures s.player == p && Running(s)
    ensures !s.sawInputEOS && s.noOutputCounter == 0
  {
    LoopState(p, false, false, 0)
  }

  /** An output buffer that carries audio: the one event that resets the counter. */
  predicate YieldsAudio(o: OutputProbe) {
    o.OutputBuffer? && o.size > 0
  }

  predicate EndsOutput(o: OutputProbe) {
    o.OutputBuffer? && o.endOfStream
  }

  /** Every write to the sink in the log carries at least one byte. */
  ghost predicate NoEmptyWrites(log: seq<Effect>) {
    forall i :: 0 <= i < |log| && log[i].WriteSink? ==> log[i].bytes > 0
  }

  /** The parts of the player the decode loop never touches. */
  ghost predicate SameAsset(p: Player, q: Player) {
    && q.assets == p.assets
    && q.currentAsset == p.currentAsset
    && q.extractor == p.extractor
    && q.codec == p.codec
    && q.audioTrack == p.audioTrack
    && q.absoluteExtractedPositionUs == p.absoluteExtractedPositionUs
    && q.absoluteDecodedPositionUs == p.absoluteDecodedPositionUs
  }

  /**
    The input half of an iteration. After input end of stream nothing is read
    or queued any more. A negative read is the end of stream: an empty buffer
    flagged end-of-stream at time 0 is queued and the extracted position stays.
    A sample is queued with its size and time, the extractor advances, and the
    extracted position becomes the sample's time.
   */
  function FeedInput(s: LoopState, probe: InputProbe): (r: LoopState)
    ensures s.sawInputEOS || probe.NoInputBuffer? ==> r == s
    ensures r.sawInputEOS <==> s.sawInputEOS || (probe.InputBuffer? && probe.sampleSize < 0)
    ensures !s.sawInputEOS && probe.InputBuffer? && probe.sampleSize < 0 ==>
              r.player.log == s.player.log + [QueueInput(0, 0, true)]
              && r.player.currentExtractorPositionUs == s.player.currentExtractorPositionUs
    ensures !s.sawInputEOS && probe.InputBuffer? && probe.sampleSize >= 0 ==>
              r.player.log == s.player.log + [QueueInput(probe.sampleSize, probe.sampleTimeUs, false), AdvanceExtractor]
              && r.player.currentExtractorPositionUs == probe.sampleTimeUs
    ensures r.player.(currentExtractorPositionUs := s.player.currentExtractorPositionUs, log := s.player.log) == s.player
    ensures r.sawOutputEOS == s.sawOutputEOS && r.noOutputCounter == s.noOutputCounter
  {
    if s.sawInputEOS then s
    else match probe
      case NoInputBuffer => s
      case InputBuffer(size, timeUs) =>
        if size < 0 then
          s.(player := Emit(s.player, QueueInput(0, 0, true)), sawInputEOS := true)
        else
          var p1 := Emit(s.player, QueueInput(size, timeUs, false)).(currentExtractorPositionUs := timeUs);
          s.(player := Emit(p1, AdvanceExtractor))
  }

  /**
    The output half of an iteration. An output buffer sets the decoded
    position to its time, is written to the sink only when it is non-empty,
    resets the counter exactly when it is non-empty, and ends the output when
    flagged. A format change passes the new rate to the sink; the other
    answers change nothing.
   */
  function DrainOutput(s: LoopState, probe: OutputProbe): (r: LoopState)
    ensures YieldsAudio(probe) ==> r.noOutputCounter == 0 && r.player.log == s.player.log + [WriteSink(probe.size)]
    ensures !YieldsAudio(probe) ==> r.noOutputCounter == s.noOutputCounter
    ensures probe.OutputBuffer? && probe.size == 0 ==> r.player.log == s.player.log
    ensures probe.OutputFormatChanged? ==> r.player.log == s.player.log + [SetPlaybackRate(probe.sampleRate)]
    ensures r.sawOutputEOS <==> s.sawOutputEOS || EndsOutput(probe)
    ensures probe.OutputBuffer? ==> r.player.currentCodecPositionUs == probe.presentationTimeUs
    ensures !probe.OutputBuffer? && !probe.OutputFormatChanged? ==> r == s
    ensures r.player.(currentCodecPositionUs := s.player.currentCodecPositionUs, log := s.player.log) == s.player
    ensures r.sawInputEOS == s.sawInputEOS
  {
    match probe
    case OutputBuffer(size, timeUs, eos) =>
      var p1 := s.player.(currentCodecPositionUs := timeUs);
      var p2 := if size > 0 then Emit(p1, WriteSink(size)) else p1;
      s.(player := p2,
         noOutputCounter := if size > 0 then 0 else s.noOutputCounter,
         sawOutputEOS := s.sawOutputEOS || eos)
    case OutputFormatChanged(rate) =>
      s.(player := Emit(s.player, SetPlaybackRate(rate)))
    case _ => s
  }

  /**
    What the input half of a pass logs while input is open and a buffer is
    free: the sample and the advance, or at end of stream the flagged empty
    buffer alone.
   */
  function InputEffects(s: LoopState, probe: InputProbe): seq<Effect> {
    if s.sawInputEOS || probe.NoInputBuffer? then []
    else if probe.sampleSize < 0 then [QueueInput(0, 0, true)]
    else [QueueInput(probe.sampleSize, probe.sampleTimeUs, false), AdvanceExtractor]
  }

  /**
    What the output half of a pass logs: the bytes of a non-empty output
    buffer, or the rate of a format change; nothing otherwise.
   */
  function OutputEffects(probe: OutputProbe): seq<Effect> {
    if YieldsAudio(probe) then [WriteSink(probe.size)]
    else if probe.OutputFormatChanged? then [SetPlaybackRate(probe.sampleRate)]
    else []
  }

  /** Whether a pass's preload opens the next asset's look-ahead extractor. */
  predicate PreloadOpens(p: Player, t: Tick) {
    && p.nextExtractor.None? && p.extractor.Some?
    && p.currentAsset < |p.assets| - 1
    && t.cacheAtEnd && t.preloadOpens
  }

  /**
    One pass of the loop body: count, feed, drain, then try the look-ahead
    preload. The pass logs exactly the input half's effects, then the output
    half's, then the look-ahead open; the feed and drain effects happen
    before the preload, so they are logged whether or not the preload throws.
   */
  function Step(s: LoopState, t: Tick): (r: StepResult)
    ensures r.StepThrew? <==>
              && s.player.nextExtractor.None? && s.player.extractor.Some?
              && s.player.currentAsset < |s.player.assets| - 1
              && t.cacheAtEnd && !t.preloadOpens
    ensures StepPlayer(r).log == s.player.log + InputEffects(s, t.input) + OutputEffects(t.output)
              + (if PreloadOpens(s.player, t) then [OpenExtractor(s.player.currentAsset + 1)] else [])
    ensures !s.sawInputEOS && t.input.InputBuffer? && t.input.sampleSize >= 0 ==>
              StepPlayer(r).currentExtractorPositionUs == t.input.sampleTimeUs
    ensures t.output.OutputBuffer? ==> StepPlayer(r).currentCodecPositionUs == t.output.presentationTimeUs
    ensures r.Next? ==>
              && (YieldsAudio(t.output) ==> r.state.noOutputCounter == 0)
              && (!YieldsAudio(t.output) ==> r.state.noOutputCounter == s.noOutputCounter + 1)
              && (r.state.sawInputEOS <==> s.sawInputEOS || (t.input.InputBuffer? && t.input.sampleSize < 0))
              && (r.state.sawOutputEOS <==> s.sawOutputEOS || EndsOutput(t.output))
  {
    var s1 := s.(noOutputCounter := s.noOutputCounter + 1);
    var s2 := FeedInput(s1, t.input);
    var s3 := DrainOutput(s2, t.output);
    var preload := TryPreloadNextExtractor(s3.player, t.cacheAtEnd, t.preloadOpens);
    var q := preload.player;
    assert s2.player.log == s.player.log + InputEffects(s, t.input);
    assert s3.player.log == s2.player.log + OutputEffects(t.output);
    assert q.currentExtractorPositionUs == s3.player.currentExtractorPositionUs;
    assert q.currentCodecPositionUs == s3.player.currentCodecPositionUs;
    if preload.Threw? then StepThrew(q) else Next(s3.(player := q))
  }

  /**
    A pass writes to the sink only the bytes of a non-empty output buffer,
    and at most once.
   */
  lemma StepWritesOnlyAudio(s: LoopState, t: Tick)
    ensures var log := StepPlayer(Step(s, t)).log;
            && |s.player.log| <= |log|
            && (forall i :: |s.player.log| <= i < |log| && log[i].WriteSink? ==>
                  YieldsAudio(t.output) && log[i].bytes == t.output.size)
            && (YieldsAudio(t.output) ==> WriteSink(t.output.size) in log[|s.player.log|..])
  {
    InputEffectsReadInput(s, t.input);
    var open := if PreloadOpens(s.player, t) then [OpenExtractor(s.player.currentAsset + 1)] else [];
    WritesComeFromOutput(s.player.log, InputEffects(s, t.input), t.output, open, StepPlayer(Step(s, t)).log);
  }

  /** The input half logs only queued buffers and advances. */
  lemma InputEffectsReadInput(s: LoopState, probe: InputProbe)
    ensures forall e | e in InputEffects(s, probe) :: e.ReadsInput()
  {
  }

  /** In a log extended by input effects, the output effects and other non-writes, every write is the output's. */
  lemma WritesComeFromOutput(pre: seq<Effect>, input: seq<Effect>, output: OutputProbe, other: seq<Effect>, log: seq<Effect>)
    requires forall e | e in input :: e.ReadsInput()
    requires forall e | e in other :: e.OpenExtractor?
    requires log == pre + input + OutputEffects(output) + other
    ensures |pre| <= |log|
    ensures forall i :: |pre| <= i < |log| && log[i].WriteSink? ==> YieldsAudio(output) && log[i].bytes == output.size
    ensures YieldsAudio(output) ==> WriteSink(output.size) in log[|pre|..]
  {
    var n := |pre|;
    var added := input + OutputEffects(output) + other;
    assert log[n..] == added;
    forall i | n <= i < |log| && log[i].WriteSink?
      ensures YieldsAudio(output) && log[i].bytes == output.size
    {
      assert log[i] == added[i - n];
      assert added[i - n] in added;
    }
    if YieldsAudio(output) {
      assert added[|input|] == WriteSink(output.size);
    }
  }

  /** Player of a step's result, whichever way it ended. */
  function StepPlayer(r: StepResult): Player {
    match r
    case Next(s) => s.player
    case StepThrew(p) => p
  }

  /**
    What the decode loop keeps from `p` to `q`: the log only grows, no empty
    write reaches the sink, the current extractor, decoder, sink and totals
    stay, the handle invariant holds, nothing is released, only extractors
    are acquired, and the resource balance is unchanged.
   */
  ghost predicate Kept(p: Player, q: Player) {
    && p.log <= q.log
    && (NoEmptyWrites(p.log) ==> NoEmptyWrites(q.log))
    && SameAsset(p, q)
    && (Valid(p) ==> Valid(q))
    && (forall k :: Released(q.log, k) == Released(p.log, k))
    && (forall k :: k != ExtractorKind ==> Acquired(q.log, k) == Acquired(p.log, k))
    && (forall k :: Balance(q, k) == Balance(p, k))
  }

  lemma KeptTransitive(p: Player, q: Player, r: Player)
    requires Kept(p, q) && Kept(q, r)
    ensures Kept(p, r)
  {
  }

  /**
    What one pass keeps: everything `Kept` states, and after input end of
    stream the pass reads nothing and leaves the extracted position alone.
   */
  lemma StepKeeps(s: LoopState, t: Tick)
    ensures var q := StepPlayer(Step(s, t));
            && Kept(s.player, q)
            && (s.sawInputEOS ==>
                  q.currentExtractorPositionUs == s.player.currentExtractorPositionUs
                  && forall i :: |s.player.log| <= i < |q.log| ==> !q.log[i].ReadsInput())
  {
    var s1 := s.(noOutputCounter := s.noOutputCounter + 1);
    var s3 := DrainOutput(FeedInput(s1, t.input), t.output);
    var q := StepPlayer(Step(s, t));
    assert q == TryPreloadNextExtractor(s3.player, t.cacheAtEnd, t.preloadOpens).player;
    HalvesKeep(s1, t);
    PreloadKept(s3.player, t.cacheAtEnd, t.preloadOpens);
    KeptTransitive(s.player, s3.player, q);
    if s.sawInputEOS {
      StepAfterInputEnd(s, t);
    }
  }

  /** The look-ahead preload keeps everything `Kept` states. */
  lemma PreloadKept(p: Player, cacheAtEnd: bool, opens: bool)
    ensures Kept(p, TryPreloadNextExtractor(p, cacheAtEnd, opens).player)
  {
    TryPreloadKeepsInvariants(p, cacheAtEnd, opens);
    AppendKeepsWrites(p.log, OpenExtractor(p.currentAsset + 1));
  }

  /** The feed and drain halves keep everything `Kept` states. */
  lemma HalvesKeep(s: LoopState, t: Tick)
    ensures Kept(s.player, DrainOutput(FeedInput(s, t.input), t.output).player)
  {
    FeedInputKeeps(s, t.input);
    DrainOutputKeeps(FeedInput(s, t.input), t.output);
    var q := DrainOutput(FeedInput(s, t.input), t.output).player;
    forall k ensures Balance(q, k) == Balance(s.player, k) {
      assert Live(q, k) == Live(s.player, k);
    }
  }

  lemma FeedInputKeeps(s: LoopState, probe: InputProbe)
    ensures var q := FeedInput(s, probe).player;
            && s.player.log <= q.log
            && (NoEmptyWrites(s.player.log) ==> NoEmptyWrites(q.log))
            && (forall k :: Acquired(q.log, k) == Acquired(s.player.log, k))
            && (forall k :: Released(q.log, k) == Released(s.player.log, k))
  {
    var r := FeedInput(s, probe);
    if !s.sawInputEOS && probe.InputBuffer? && probe.sampleSize >= 0 {
      var p1 := Emit(s.player, QueueInput(probe.sampleSize, probe.sampleTimeUs, false));
      assert r.player.log == p1.log + [AdvanceExtractor];
      NeutralAppend(s.player.log, QueueInput(probe.sampleSize, probe.sampleTimeUs, false));
      NeutralAppend(p1.log, AdvanceExtractor);
    } else if !s.sawInputEOS && probe.InputBuffer? {
      NeutralAppend(s.player.log, QueueInput(0, 0, true));
    }
  }

  lemma DrainOutputKeeps(s: LoopState, probe: OutputProbe)
    ensures var q := DrainOutput(s, probe).player;
            && s.player.log <= q.log
            && (NoEmptyWrites(s.player.log) ==> NoEmptyWrites(q.log))
            && (forall k :: Acquired(q.log, k) == Acquired(s.player.log, k))
            && (forall k :: Released(q.log, k) == Released(s.player.log, k))
  {
    match probe
    case OutputBuffer(size, _, _) =>
      if size > 0 {
        NeutralAppend(s.player.log, WriteSink(size));
      }
    case OutputFormatChanged(rate) =>
      NeutralAppend(s.player.log, SetPlaybackRate(rate));
    case _ =>
  }

  /** Appending an effect that acquires and releases nothing, and is no empty write, changes no count. */
  lemma NeutralAppend(log: seq<Effect>, e: Effect)
    requires e.Neutral() && (e.WriteSink? ==> e.bytes > 0)
    ensures NoEmptyWrites(log) ==> NoEmptyWrites(log + [e])
    ensures forall k :: Acquired(log + [e], k) == Acquired(log, k)
    ensures forall k :: Released(log + [e], k) == Released(log, k)
  {
    assert (log + [e])[..|log|] == log;
    AppendKeepsWrites(log, e);
  }

  lemma AppendKeepsWrites(log: seq<Effect>, e: Effect)
    requires e.WriteSink? ==> e.bytes > 0
    ensures NoEmptyWrites(log) ==> NoEmptyWrites(log + [e])
  {
    if NoEmptyWrites(log) {
      forall i | 0 <= i < |log + [e]| && (log + [e])[i].WriteSink?
        ensures (log + [e])[i].bytes > 0
      {
        if i < |log| {
          assert (log + [e])[i] == log[i];
        }
      }
    }
  }

  /** After input end of stream a pass queues nothing, advances nothing and keeps the extracted position. */
  lemma StepAfterInputEnd(s: LoopState, t: Tick)
    requires s.sawInputEOS
    ensures var q := StepPlayer(Step(s, t));
            && s.player.log <= q.log
            && q.currentExtractorPositionUs == s.player.currentExtractorPositionUs
            && forall i :: |s.player.log| <= i < |q.log| ==> !q.log[i].ReadsInput()
  {
    var s1 := s.(noOutputCounter := s.noOutputCounter + 1);
    var s3 := DrainOutput(FeedInput(s1, t.input), t.output);
    var q := StepPlayer(Step(s, t));
    assert FeedInput(s1, t.input) == s1;
    assert s.player.log <= s3.player.log <= q.log;
    forall i | |s.player.log| <= i < |q.log|
      ensures !q.log[i].ReadsInput()
    {
      if i < |s3.player.log| {
        assert q.log[i] == s3.player.log[i];
      }
    }
  }

  /** The loop guard: `!sawOutputEOS && noOutputCounter < limit`, before isCancelled() is asked. */
  predicate Running(s: LoopState) {
    !s.sawOutputEOS && s.noOutputCounter < NO_OUTPUT_COUNTER_LIMIT
  }

  /**
    The decode loop over a script of ticks. It exits only on output end of
    stream, on the counter reaching its limit, or on observed cancellation,
    in that order of the guard; it runs at most one pass per tick, and it
    runs out of script only after a pass for every tick, none of them
    cancelled; the counter grows by at most one per pass and stays within
    [0, limit]; and input end of stream, once seen, stays seen.
   */
  function RunLoop(s: LoopState, ticks: seq<Tick>): (r: LoopOutcome)
    decreases |ticks|
    ensures r.Exited? && r.exit == OutputEnded ==> r.state.sawOutputEOS
    ensures r.Exited? && r.exit == Starved ==>
              !r.state.sawOutputEOS && r.state.noOutputCounter >= NO_OUTPUT_COUNTER_LIMIT
    ensures r.Exited? && r.exit == Cancelled ==>
              Running(r.state) && r.iterations < |ticks| && ticks[r.iterations].cancelled
    ensures r.OutOfTicks? ==> Running(r.state)
    ensures r.OutOfTicks? ==> r.iterations == |ticks|
    ensures r.Exited? || r.OutOfTicks? ==>
              r.iterations <= |ticks| && forall i :: 0 <= i < r.iterations ==> !ticks[i].cancelled
    ensures r.Exited? && 0 <= s.noOutputCounter ==> r.state.noOutputCounter <= s.noOutputCounter + r.iterations
    ensures 0 <= s.noOutputCounter <= NO_OUTPUT_COUNTER_LIMIT && (r.Exited? || r.OutOfTicks?) ==>
              0 <= r.state.noOutputCounter <= NO_OUTPUT_COUNTER_LIMIT
    ensures s.sawInputEOS && (r.Exited? || r.OutOfTicks?) ==> r.state.sawInputEOS
  {
    if s.sawOutputEOS then Exited(s, OutputEnded, 0)
    else if s.noOutputCounter >= NO_OUTPUT_COUNTER_LIMIT then Exited(s, Starved, 0)
    else if |ticks| == 0 then OutOfTicks(s, 0)
    else if ticks[0].cancelled then Exited(s, Cancelled, 0)
    else match Step(s, ticks[0])
      case StepThrew(p) => LoopThrew(p)
      case Next(s') =>
        match RunLoop(s', ticks[1..])
        case Exited(f, exit, n) => Exited(f, exit, n + 1)
        case OutOfTicks(f, n) => OutOfTicks(f, n + 1)
        case LoopThrew(p) => LoopThrew(p)
  }

  /** The whole loop keeps what each pass keeps. */
  lemma {:induction false} RunLoopKeeps(s: LoopState, ticks: seq<Tick>)
    decreases |ticks|
    ensures Kept(s.player, RunLoop(s, ticks).Final())
  {
    if Running(s) && |ticks| > 0 && !ticks[0].cancelled {
      StepKeeps(s, ticks[0]);
      match Step(s, ticks[0])
      case StepThrew(p) =>
      case Next(s') =>
        RunLoopKeeps(s', ticks[1..]);
        assert RunLoop(s, ticks).Final() == RunLoop(s', ticks[1..]).Final();
        KeptTransitive(s.player, s'.player, RunLoop(s', ticks[1..]).Final());
    }
  }

  /** Sample and output times the platform reports are not negative. */
  predicate NonNegativeTimes(t: Tick) {
    && (t.input.InputBuffer? ==> t.input.sampleTimeUs >= 0)
    && (t.output.OutputBuffer? ==> t.output.presentationTimeUs >= 0)
  }

  /** With non-negative reported times, the per-asset offsets stay non-negative through the loop. */
  lemma {:induction false} RunLoopOffsetsStayNonNegative(s: LoopState, ticks: seq<Tick>)
    requires forall i :: 0 <= i < |ticks| ==> NonNegativeTimes(ticks[i])
    requires s.player.currentExtractorPositionUs >= 0 && s.player.currentCodecPositionUs >= 0
    decreases |ticks|
    ensures var q := RunLoop(s, ticks).Final();
            q.currentExtractorPositionUs >= 0 && q.currentCodecPositionUs >= 0
  {
    if Running(s) && |ticks| > 0 && !ticks[0].cancelled {
      var t := ticks[0];
      assert NonNegativeTimes(t);
      var s3 := DrainOutput(FeedInput(s.(noOutputCounter := s.noOutputCounter + 1), t.input), t.output);
      assert s3.player.currentExtractorPositionUs >= 0 && s3.player.currentCodecPositionUs >= 0;
      match Step(s, t)
      case StepThrew(p) =>
      case Next(s') =>
        assert s'.player.currentExtractorPositionUs >= 0 && s'.player.currentCodecPositionUs >= 0;
        RunLoopOffsetsStayNonNegative(s', ticks[1..]);
    }
  }

  /** A pass that is not cancelled and whose preload cannot throw. */
  predicate Playing(t: Tick) {
    !t.cancelled && (t.preloadOpens || !t.cacheAtEnd)
  }

  /** A pass that neither ends nor feeds the sink, is not cancelled, and whose preload cannot throw. */
  predicate Quiet(t: Tick) {
    Playing(t) && !YieldsAudio(t.output) && !EndsOutput(t.output)
  }

  /**
    Starvation: from counter value c, a decoder that yields no audio and no
    end of stream, with no cancellation and no failing preload, stops the loop
    after exactly limit - c passes, with the counter at the limit.
   */
  lemma {:induction false} StarvationStopsLoop(s: LoopState, ticks: seq<Tick>)
    requires !s.sawOutputEOS && 0 <= s.noOutputCounter <= NO_OUTPUT_COUNTER_LIMIT
    requires |ticks| >= NO_OUTPUT_COUNTER_LIMIT - s.noOutputCounter
    requires forall i :: 0 <= i < NO_OUTPUT_COUNTER_LIMIT - s.noOutputCounter ==> Quiet(ticks[i])
    decreases NO_OUTPUT_COUNTER_LIMIT - s.noOutputCounter
    ensures var r := RunLoop(s, ticks);
            && r.Exited? && r.exit == Starved
            && r.iterations == NO_OUTPUT_COUNTER_LIMIT - s.noOutputCounter
            && r.state.noOutputCounter == NO_OUTPUT_COUNTER_LIMIT
  {
    if s.noOutputCounter < NO_OUTPUT_COUNTER_LIMIT {
      var t := ticks[0];
      assert Quiet(t);
      var s3 := DrainOutput(FeedInput(s.(noOutputCounter := s.noOutputCounter + 1), t.input), t.output);
      assert !TryPreloadNextExtractor(s3.player, t.cacheAtEnd, t.preloadOpens).Threw?;
      var s' := Step(s, t).state;
      assert s'.noOutputCounter == s.noOutputCounter + 1 && !s'.sawOutputEOS;
      forall i | 0 <= i < NO_OUTPUT_COUNTER_LIMIT - s'.noOutputCounter
        ensures Quiet(ticks[1..][i])
      {
        assert ticks[1..][i] == ticks[i + 1];
      }
      StarvationStopsLoop(s', ticks[1..]);
    }
  }

  /** The fresh loop of an asset under a silent decoder stops after exactly fifty passes. */
  lemma SilentDecoderStopsAfterLimit(p: Player, ticks: seq<Tick>)
    requires |ticks| >= NO_OUTPUT_COUNTER_LIMIT
    requires forall i :: 0 <= i < NO_OUTPUT_COUNTER_LIMIT ==> Quiet(ticks[i])
    ensures var r := RunLoop(Begin(p), ticks);
            r.Exited? && r.exit == Starved && r.iterations == NO_OUTPUT_COUNTER_LIMIT
  {
    StarvationStopsLoop(Begin(p), ticks);
  }

  /**
    Normal playback: while every pass yields audio, the loop keeps running,
    and the first pass whose output buffer carries end of stream ends the
    loop right after it, as OutputEnded.
   */
  lemma {:induction false} OutputEndStopsLoop(s: LoopState, ticks: seq<Tick>, j: nat)
    requires Running(s) && j < |ticks|
    requires forall i :: 0 <= i < j ==> Playing(ticks[i]) && YieldsAudio(ticks[i].output) && !EndsOutput(ticks[i].output)
    requires Playing(ticks[j]) && EndsOutput(ticks[j].output)
    decreases j
    ensures var r := RunLoop(s, ticks);
            r.Exited? && r.exit == OutputEnded && r.iterations == j + 1
  {
    var t := ticks[0];
    assert Playing(t);
    var s' := Step(s, t).state;
    if j == 0 {
      assert s'.sawOutputEOS;
      assert RunLoop(s', ticks[1..]) == Exited(s', OutputEnded, 0);
    } else {
      assert YieldsAudio(t.output) && !EndsOutput(t.output);
      assert Running(s');
      forall i | 0 <= i < j - 1
        ensures Playing(ticks[1..][i]) && YieldsAudio(ticks[1..][i].output) && !EndsOutput(ticks[1..][i].output)
      {
        assert ticks[1..][i] == ticks[i + 1];
      }
      assert ticks[1..][j - 1] == ticks[j];
      OutputEndStopsLoop(s', ticks[1..], j - 1);
    }
  }

  /**
    The starvation bound for any script: from counter value c, a decoder that
    never yields audio lets the loop run at most limit - c passes, whatever
    else the ticks answer.
   */
  lemma {:induction false} SilenceBoundsPasses(s: LoopState, ticks: seq<Tick>)
    requires 0 <= s.noOutputCounter <= NO_OUTPUT_COUNTER_LIMIT
    requires forall i :: 0 <= i < |ticks| ==> !YieldsAudio(ticks[i].output)
    decreases |ticks|
    ensures var r := RunLoop(s, ticks);
            r.Exited? ==> r.iterations <= NO_OUTPUT_COUNTER_LIMIT - s.noOutputCounter
    ensures |ticks| >= NO_OUTPUT_COUNTER_LIMIT - s.noOutputCounter ==> !RunLoop(s, ticks).OutOfTicks?
  {
    if Running(s) && |ticks| > 0 && !ticks[0].cancelled {
      assert !YieldsAudio(ticks[0].output);
      match Step(s, ticks[0])
      case StepThrew(_) =>
      case Next(s') =>
        assert s'.noOutputCounter == s.noOutputCounter + 1;
        forall i | 0 <= i < |ticks[1..]|
          ensures !YieldsAudio(ticks[1..][i].output)
        {
          assert ticks[1..][i] == ticks[i + 1];
        }
        SilenceBoundsPasses(s', ticks[1..]);
    }
  }

  /**
    The positions a pass reports: after a queued sample the absolute extracted
    position is the finished assets' total plus that sample's time, and after
    an output buffer the absolute decoded position is the total plus that
    buffer's time, whether or not the pass's preload throws.
   */
  lemma PositionsFollowReportedTimes(s: LoopState, t: Tick)
    ensures var q := StepPlayer(Step(s, t));
            && (!s.sawInputEOS && t.input.InputBuffer? && t.input.sampleSize >= 0 ==>
                  AbsoluteExtractedPositionUs(q) == s.player.absoluteExtractedPositionUs + t.input.sampleTimeUs)
            && (t.output.OutputBuffer? ==>
                  AbsoluteDecodedPositionUs(q) == s.player.absoluteDecodedPositionUs + t.output.presentationTimeUs)
  {
    StepKeeps(s, t);
  }
}

=== FILE: extractors.dfy ===
/**
  Asset sequencing with a look-ahead extractor: advancing to the next asset
  (adopting a pre-opened extractor when there is one) and opening the next
  asset's extractor early once the current one has cached through to its end.
  Opening an asset is an oracle: `opens` says whether the file could be
  opened, and a failed open is the IOException that ends the session.
 */
module Extractors {
  import opened PlayerState

  datatype InitResult =
    | Opened(player: Player)
    | Exhausted(player: Player)
    | OpenFailed(player: Player)

  /**
    Moves to the next asset. The previous extractor is always released and
    the index always advances by one. Inside the asset list a pending
    look-ahead extractor is adopted as it is, without opening the asset again,
    and otherwise the asset is opened now; past the end nothing is opened and
    the answer is "no more assets".
   */
  function InitNextExtractor(p: Player, opens: bool): (r: InitResult)
    ensures r.player.currentAsset == p.currentAsset + 1
    ensures r.Exhausted? <==> p.currentAsset + 1 >= |p.assets|
    ensures r.Opened? <==> p.currentAsset + 1 < |p.assets| && (p.nextExtractor.Some? || opens)
    ensures r.player.extractor.Some? <==> r.Opened?
    ensures r.Opened? && p.nextExtractor.Some? ==> r.player.extractor == p.nextExtractor
    ensures r.Opened? && p.nextExtractor.None? ==> r.player.extractor == Some(Extractor(p.currentAsset + 1))
    ensures r.Opened? || r.OpenFailed? ==> r.player.nextExtractor.None?
    ensures r.Exhausted? ==> r.player.nextExtractor == p.nextExtractor
    ensures p.log <= r.player.log
    ensures |r.player.log| == |p.log| + Holds(p.extractor) + (if r.Opened? && p.nextExtractor.None? then 1 else 0)
    ensures p.extractor.Some? ==> r.player.log[|p.log|] == ReleaseExtractor(p.extractor.value.asset)
    ensures r.Opened? && p.nextExtractor.None? ==>
              r.player.log[|r.player.log| - 1] == OpenExtractor(p.currentAsset + 1)
    ensures r.player.codec == p.codec && r.player.audioTrack == p.audioTrack && r.player.assets == p.assets
    ensures r.player.currentExtractorPositionUs == p.currentExtractorPositionUs
    ensures r.player.absoluteExtractedPositionUs == p.absoluteExtractedPositionUs
    ensures r.player.currentCodecPositionUs == p.currentCodecPositionUs
    ensures r.player.absoluteDecodedPositionUs == p.absoluteDecodedPositionUs
  {
    var p1 := DropExtractor(p).(currentAsset := p.currentAsset + 1);
    if p1.currentAsset < |p1.assets| then
      if p1.nextExtractor.Some? then
        Opened(p1.(extractor := p1.nextExtractor, nextExtractor := None))
      else if opens then
        Opened(Emit(p1, OpenExtractor(p1.currentAsset)).(extractor := Some(Extractor(p1.currentAsset))))
      else
        OpenFailed(p1)
    else
      Exhausted(p1)
  }

  /**
    Advancing keeps the handle invariant whenever no decoder is held (the
    decoder of the previous asset is released before the next one is
    selected), and it neither leaks nor loses track of an extractor.
   */
  lemma InitNextExtractorKeepsInvariants(p: Player, opens: bool)
    ensures var r := InitNextExtractor(p, opens);
            && (Valid(p) && p.codec.None? ==> Valid(r.player))
            && (forall k :: Balance(r.player, k) == Balance(p, k))
            && (forall k :: k != ExtractorKind ==> Acquired(r.player.log, k) == Acquired(p.log, k))
            && (forall k :: k != ExtractorKind ==> Released(r.player.log, k) == Released(p.log, k))
  {
    var p1 := DropExtractor(p).(currentAsset := p.currentAsset + 1);
    var r := InitNextExtractor(p, opens);
    forall k
      ensures Balance(r.player, k) == Balance(p, k)
    {
      assert Acquired(p1.log, k) == Acquired(p.log, k);
      assert Released(p1.log, k) == Released(p.log, k) + (if k == ExtractorKind then Holds(p.extractor) else 0);
    }
  }

  /**
    The look-ahead step. With a look-ahead already pending, or without a
    current extractor, nothing changes. Otherwise, when the current asset is
    not the last and the current extractor has cached through to its end, the
    next asset (and only that one) is opened as the look-ahead; a failed open
    throws with the state unchanged. In every other case nothing changes.
   */
  function TryPreloadNextExtractor(p: Player, cacheAtEnd: bool, opens: bool): (r: Attempt)
    ensures p.nextExtractor.Some? || p.extractor.None? ==> r == Done(p)
    ensures r.Threw? <==> (p.nextExtractor.None? && p.extractor.Some?
                            && p.currentAsset < |p.assets| - 1 && cacheAtEnd && !opens)
    ensures r.Threw? ==> r.player == p
    ensures r.player.nextExtractor != p.nextExtractor <==>
              (p.nextExtractor.None? && p.extractor.Some?
               && p.currentAsset < |p.assets| - 1 && cacheAtEnd && opens)
    ensures r.player.nextExtractor != p.nextExtractor ==>
              r.player.nextExtractor == Some(Extractor(p.currentAsset + 1))
              && r.player.log == p.log + [OpenExtractor(p.currentAsset + 1)]
    ensures r.player.nextExtractor == p.nextExtractor ==> r.player == p
    ensures r.player.(nextExtractor := p.nextExtractor, log := p.log) == p
  {
    if p.nextExtractor.Some? || p.extractor.None? then
      Done(p)
    else if p.currentAsset < |p.assets| - 1 && cacheAtEnd then
      if opens then
        Done(Emit(p, OpenExtractor(p.currentAsset + 1)).(nextExtractor := Some(Extractor(p.currentAsset + 1))))
      else
        Threw(p)
    else
      Done(p)
  }

  /**
    The look-ahead keeps the handle invariant, so at most one look-ahead
    exists and it always reads the asset after the current one, and it
    neither leaks nor loses track of an extractor.
   */
  lemma TryPreloadKeepsInvariants(p: Player, cacheAtEnd: bool, opens: bool)
    ensures var r := TryPreloadNextExtractor(p, cacheAtEnd, opens);
            && (Valid(p) ==> Valid(r.player))
            && (forall k :: Balance(r.player, k) == Balance(p, k))
            && (forall k :: Released(r.player.log, k) == Released(p.log, k))
            && (forall k :: k != ExtractorKind ==> Acquired(r.player.log, k) == Acquired(p.log, k))
  {
  }
}

=== FILE: java_int.dfy ===
/**
  Java's fixed-width integer arithmetic, as far as the player relies on it:
  the `(int)` and `long` wrap-around of casts and products, and the division
  operator `/`, which truncates toward zero (Dafny's own `/` is Euclidean).
 */
module JavaInt {

  const TWO_32: int := 0x1_0000_0000
  const TWO_64: int := 0x1_0000_0000_0000_0000

  /** Whether `x` is a value of Java's `int`. */
  predicate IsInt32(x: int) {
    -0x8000_0000 <= x < 0x8000_0000
  }

  /** Whether `x` is a value of Java's `long`. */
  predicate IsInt64(x: int) {
    -0x8000_0000_0000_0000 <= x < 0x8000_0000_0000_0000
  }

  /** Values of Java's `int`. */
  type int32 = x: int | IsInt32(x)

  /** Values of Java's `long`. */
  type int64 = x: int | IsInt64(x)

  function Abs(x: int): nat {
    if x < 0 then -x else x
  }

  function Max(a: int, b: int): (m: int)
    ensures m >= a && m >= b
    ensures m == a || m == b
  {
    if a >= b then a else b
  }

  /** The `int` a Java `(int)` cast or `int` operation keeps: the low 32 bits, two's complement. */
  function ToInt32(x: int): (r: int32)
    ensures (x - r) % TWO_32 == 0
    ensures IsInt32(x) ==> r == x
  {
    var m := (x + 0x8000_0000) % TWO_32;
    assert x - (m - 0x8000_0000) == TWO_32 * ((x + 0x8000_0000) / TWO_32);
    m - 0x8000_0000
  }

  /** The `long` a Java `long` operation keeps: the low 64 bits, two's complement. */
  function ToInt64(x: int): (r: int64)
    ensures (x - r) % TWO_64 == 0
    ensures IsInt64(x) ==> r == x
  {
    var m := (x + 0x8000_0000_0000_0000) % TWO_64;
    assert x - (m - 0x8000_0000_0000_0000) == TWO_64 * ((x + 0x8000_0000_0000_0000) / TWO_64);
    m - 0x8000_0000_0000_0000
  }

  /**
    Java's integer `/`: the quotient rounded toward zero, so that the remainder
    takes the sign of the dividend and is smaller than the divisor in magnitude.
   */
  function Quot(a: int, b: int): (q: int)
    requires b != 0
    ensures Abs(a - q * b) < Abs(b)
    ensures a - q * b == 0 || (a - q * b < 0 <==> a < 0)
    ensures a >= 0 && b > 0 ==> q == a / b
  {
    var m := Abs(a) / Abs(b);
    QuotientOfMagnitudes(a, b, m);
    if (a < 0) == (b < 0) then m else -m
  }

  lemma QuotientOfMagnitudes(a: int, b: int, m: int)
    requires b != 0 && m == Abs(a) / Abs(b)
    ensures var q := if (a < 0) == (b < 0) then m else -m;
            Abs(a - q * b) == Abs(a) - m * Abs(b) < Abs(b)
            && (a - q * b == 0 || (a - q * b < 0 <==> a < 0))
  {
    var q := if (a < 0) == (b < 0) then m else -m;
    assert 0 <= Abs(a) - m * Abs(b) < Abs(b);
    if a >= 0 {
      assert q * b == m * Abs(b);
    } else {
      assert q * b == -(m * Abs(b));
    }
  }
}

=== FILE: player.dfy ===
/**
  The state of one playback session: the asset list, the index of the current
  asset, the platform objects the player holds (current and look-ahead
  extractor, decoder, audio sink) as opaque handles, the four position
  counters, and the log of every interaction with a platform object.

  Handles are known by what they were opened for; their contents stay with the
  platform. Whether a handle leaks is read off the log: every open, start or
  construction is an acquisition, every release a release.
 */
module PlayerState {
  import opened JavaInt
  import opened AudioFormat

  datatype Option<T> = None | Some(value: T)

  /**
    The parts of track 0's format the player acts on. The mime type only
    selects the decoder and the duration only feeds a log line, so neither
    is carried.
   */
  datatype TrackFormat = TrackFormat(sampleRate: int32, channelCount: int32)

  /** An asset of the playlist, known by the format of its track 0. */
  datatype Asset = Asset(format: TrackFormat)

  /** An open MediaExtractor reading the asset with this index. */
  datatype Extractor = Extractor(asset: int)

  /** A configured and started MediaCodec decoder for the asset with this index. */
  datatype Codec = Codec(asset: int)

  /** The AudioTrack sink, with the parameters it was constructed with. */
  datatype Sink = Sink(sampleRate: int32, layout: ChannelLayout, bufferSize: int32)

  /** One interaction of the player with a platform object. */
  datatype Effect =
    | OpenExtractor(asset: int)
    | ReleaseExtractor(asset: int)
    | StartCodec(asset: int)
    | ReleaseCodec(asset: int)
    | StartSink(sink: Sink)
    | ReleaseSink
    | QueueInput(size: int, presentationTimeUs: int, endOfStream: bool)
    | AdvanceExtractor
    | WriteSink(bytes: int)
    | SetPlaybackRate(sampleRate: int)
  {
    predicate Acquires(k: Resource) {
      match this
      case OpenExtractor(_) => k == ExtractorKind
      case StartCodec(_) => k == CodecKind
      case StartSink(_) => k == SinkKind
      case _ => false
    }

    predicate Releases(k: Resource) {
      match this
      case ReleaseExtractor(_) => k == ExtractorKind
      case ReleaseCodec(_) => k == CodecKind
      case ReleaseSink => k == SinkKind
      case _ => false
    }

    /** Whether the effect releases a platform object. */
    predicate IsRelease() {
      ReleaseExtractor? || ReleaseCodec? || ReleaseSink?
    }

    /** Whether the effect neither acquires nor releases a platform object. */
    predicate Neutral() {
      QueueInput? || AdvanceExtractor? || WriteSink? || SetPlaybackRate?
    }

    /** Whether the effect is a step of feeding the decoder from the extractor. */
    predicate ReadsInput() {
      QueueInput? || AdvanceExtractor?
    }
  }

  /** The three kinds of platform object the player must release. */
  datatype Resource = ExtractorKind | CodecKind | SinkKind

  datatype Player = Player(
    assets: seq<Asset>,
    currentAsset: int,
    extractor: Option<Extractor>,
    nextExtractor: Option<Extractor>,
    codec: Option<Codec>,
    audioTrack: Option<Sink>,
    currentExtractorPositionUs: int,
    absoluteExtractedPositionUs: int,
    currentCodecPositionUs: int,
    absoluteDecodedPositionUs: int,
    log: seq<Effect>)

  /** A step that either completes or lets an IOException escape, with the state at that point. */
  datatype Attempt = Done(player: Player) | Threw(player: Player)

  /** The freshly constructed player: no asset selected yet, nothing open, positions zero. */
  function Initial(assets: seq<Asset>): (p: Player)
    ensures Valid(p) && Balanced(p)
    ensures p.currentAsset == -1 && |p.log| == 0
  {
    Player(assets, -1, None, None, None, None, 0, 0, 0, 0, [])
  }

  /**
    The handle invariant: an open extractor reads the current asset, a
    look-ahead extractor exists only beside a current one and reads the
    asset right after it, and a decoder belongs to the current asset.
   */
  ghost predicate Valid(p: Player) {
    && p.currentAsset >= -1
    && (p.extractor.Some? ==>
          p.extractor.value.asset == p.currentAsset && 0 <= p.currentAsset < |p.assets|)
    && (p.nextExtractor.Some? ==>
          p.extractor.Some? && p.nextExtractor.value.asset == p.currentAsset + 1 < |p.assets|)
    && (p.codec.Some? ==> p.extractor.Some? && p.codec.value.asset == p.currentAsset)
  }

  /** Number of acquisitions of kind `k` in a log. */
  function Acquired(log: seq<Effect>, k: Resource): nat {
    if |log| == 0 then 0
    else Acquired(log[..|log| - 1], k) + (if log[|log| - 1].Acquires(k) then 1 else 0)
  }

  /** Number of releases of kind `k` in a log. */
  function Released(log: seq<Effect>, k: Resource): nat {
    if |log| == 0 then 0
    else Released(log[..|log| - 1], k) + (if log[|log| - 1].Releases(k) then 1 else 0)
  }

  function Holds<T>(o: Option<T>): nat {
    if o.Some? then 1 else 0
  }

  /** Number of handles of kind `k` the player currently holds. */
  function Live(p: Player, k: Resource): nat {
    match k
    case ExtractorKind => Holds(p.extractor) + Holds(p.nextExtractor)
    case CodecKind => Holds(p.codec)
    case SinkKind => Holds(p.audioTrack)
  }

  /** Acquisitions not accounted for by a release or a held handle; zero when nothing leaked. */
  function Balance(p: Player, k: Resource): int {
    Acquired(p.log, k) - Released(p.log, k) - Live(p, k)
  }

  ghost predicate Balanced(p: Player) {
    forall k :: Balance(p, k) == 0
  }

  /**
    At no point of the log are two objects of kind `k` outstanding (acquired
    and not yet released): every prefix has acquired at most one more than
    it has released.
   */
  ghost predicate AtMostOneOutstanding(log: seq<Effect>, k: Resource) {
    forall n :: 0 <= n <= |log| ==> Acquired(log[..n], k) <= Released(log[..n], k) + 1
  }

  /** Longer prefixes of a log have acquired and released at least as much. */
  lemma {:induction false} CountsGrowWithPrefix(log: seq<Effect>, n: nat, m: nat, k: Resource)
    requires n <= m <= |log|
    decreases m - n
    ensures Acquired(log[..n], k) <= Acquired(log[..m], k)
    ensures Released(log[..n], k) <= Released(log[..m], k)
  {
    if n < m {
      CountsGrowWithPrefix(log, n, m - 1, k);
      assert log[..m][..m - 1] == log[..m - 1];
    }
  }

  /**
    A log that never had two objects of kind `k` outstanding keeps that
    property when it grows by effects that, all together, acquire at most
    one more than the old log had released.
   */
  lemma OutstandingStaysAtMostOne(log: seq<Effect>, log': seq<Effect>, k: Resource)
    requires log <= log' && AtMostOneOutstanding(log, k)
    requires Acquired(log', k) <= Released(log, k) + 1
    ensures AtMostOneOutstanding(log', k)
  {
    forall n | 0 <= n <= |log'|
      ensures Acquired(log'[..n], k) <= Released(log'[..n], k) + 1
    {
      if n <= |log| {
        assert log'[..n] == log[..n];
      } else {
        CountsGrowWithPrefix(log', n, |log'|, k);
        CountsGrowWithPrefix(log', |log|, n, k);
        assert log'[..|log'|] == log';
        assert log'[..|log|] == log;
      }
    }
  }

  /** Records one interaction with a platform object. */
  function Emit(p: Player, e: Effect): (r: Player)
    ensures r.log == p.log + [e]
    ensures forall k :: Acquired(r.log, k) == Acquired(p.log, k) + (if e.Acquires(k) then 1 else 0)
    ensures forall k :: Released(r.log, k) == Released(p.log, k) + (if e.Releases(k) then 1 else 0)
  {
    assert (p.log + [e])[..|p.log|] == p.log;
    p.(log := p.log + [e])
  }

  /**
    Extracted position: the finished assets' total plus the last sample time
    of the current one. At an asset boundary (offset zero) it is the total, and
    it never lies behind the total while the offset is non-negative.
   */
  function AbsoluteExtractedPositionUs(p: Player): (pos: int)
    ensures p.currentExtractorPositionUs == 0 ==> pos == p.absoluteExtractedPositionUs
    ensures p.currentExtractorPositionUs >= 0 ==> pos >= p.absoluteExtractedPositionUs
  {
    p.absoluteExtractedPositionUs + p.currentExtractorPositionUs
  }

  /**
    Decoded position: the finished assets' total plus the last output time of
    the current one, with the same relation to the total.
   */
  function AbsoluteDecodedPositionUs(p: Player): (pos: int)
    ensures p.currentCodecPositionUs == 0 ==> pos == p.absoluteDecodedPositionUs
    ensures p.currentCodecPositionUs >= 0 ==> pos >= p.absoluteDecodedPositionUs
  {
    p.absoluteDecodedPositionUs + p.currentCodecPositionUs
  }

  /**
    The end-of-asset fold: the per-asset offsets move into the accumulated
    totals. Both absolute positions stay where they were, the offsets restart
    at zero, the totals do not decrease when the offsets were non-negative,
    and nothing but the four counters changes.
   */
  function FoldPositions(p: Player): (r: Player)
    ensures AbsoluteExtractedPositionUs(r) == AbsoluteExtractedPositionUs(p)
    ensures AbsoluteDecodedPositionUs(r) == AbsoluteDecodedPositionUs(p)
    ensures r.currentExtractorPositionUs == 0 && r.currentCodecPositionUs == 0
    ensures p.currentExtractorPositionUs >= 0 ==> r.absoluteExtractedPositionUs >= p.absoluteExtractedPositionUs
    ensures p.currentCodecPositionUs >= 0 ==> r.absoluteDecodedPositionUs >= p.absoluteDecodedPositionUs
    ensures r.(absoluteExtractedPositionUs := p.absoluteExtractedPositionUs,
               currentExtractorPositionUs := p.currentExtractorPositionUs,
               absoluteDecodedPositionUs := p.absoluteDecodedPositionUs,
               currentCodecPositionUs := p.currentCodecPositionUs) == p
  {
    p.(absoluteExtractedPositionUs := p.absoluteExtractedPositionUs + p.currentExtractorPositionUs,
       currentExtractorPositionUs := 0,
       absoluteDecodedPositionUs := p.absoluteDecodedPositionUs + p.currentCodecPositionUs,
       currentCodecPositionUs := 0)
  }

  /**
    The cleanup that runs in `finally`: every held extractor, the decoder (if
    any) and the sink (if any) are released, each exactly once, and the
    player ends holding nothing. Nothing is acquired, and apart from the
    handles and the log the state is untouched.
   */
  function ReleaseResources(p: Player): (r: Player)
    ensures r.extractor.None? && r.nextExtractor.None? && r.codec.None? && r.audioTrack.None?
    ensures r.assets == p.assets && r.currentAsset == p.currentAsset
    ensures AbsoluteExtractedPositionUs(r) == AbsoluteExtractedPositionUs(p)
    ensures AbsoluteDecodedPositionUs(r) == AbsoluteDecodedPositionUs(p)
    ensures p.log <= r.log
    ensures Valid(p) ==> Valid(r)
  {
    DropSink(DropCodec(DropNextExtractor(DropExtractor(p))))
  }

  /**
    The cleanup acquires nothing and releases each held handle exactly once,
    so it leaves no leak that was not there before.
   */
  lemma ReleaseResourcesReleasesEachHandleOnce(p: Player)
    ensures var r := ReleaseResources(p);
            && (forall k :: Acquired(r.log, k) == Acquired(p.log, k))
            && (forall k :: Released(r.log, k) == Released(p.log, k) + Live(p, k))
            && (forall k :: Balance(r, k) == Balance(p, k))
  {
    forall k
      ensures Acquired(ReleaseResources(p).log, k) == Acquired(p.log, k)
      ensures Released(ReleaseResources(p).log, k) == Released(p.log, k) + Live(p, k)
    {
      ReleaseResourcesCounts(p, k);
    }
  }

  lemma ReleaseResourcesCounts(p: Player, k: Resource)
    ensures var r := ReleaseResources(p);
            && Acquired(r.log, k) == Acquired(p.log, k)
            && Released(r.log, k) == Released(p.log, k) + Live(p, k)
  {
    var p1 := DropExtractor(p);
    var p2 := DropNextExtractor(p1);
    var p3 := DropCodec(p2);
    var r := DropSink(p3);
    assert Acquired(r.log, k) == Acquired(p.log, k) by {
      assert Acquired(p1.log, k) == Acquired(p.log, k);
      assert Acquired(p2.log, k) == Acquired(p1.log, k);
      assert Acquired(p3.log, k) == Acquired(p2.log, k);
    }
    LiveByKind(p, k);
  }

  /** The handles of kind `k`, counted field by field. */
  lemma LiveByKind(p: Player, k: Resource)
    ensures Live(p, k) == (if k == ExtractorKind then Holds(p.extractor) + Holds(p.nextExtractor) else 0)
                          + (if k == CodecKind then Holds(p.codec) else 0)
                          + (if k == SinkKind then Holds(p.audioTrack) else 0)
  {
  }

  /** A decoder that is still held when the cleanup runs is stopped and released by it. */
  lemma ReleaseResourcesReleasesCodec(p: Player)
    requires p.codec.Some?
    ensures ReleaseCodec(p.codec.value.asset) in ReleaseResources(p).log[|p.log|..]
  {
    var p3 := DropCodec(DropNextExtractor(DropExtractor(p)));
    var r := DropSink(p3);
    assert r.log[|p3.log| - 1] == ReleaseCodec(p.codec.value.asset);
    assert r.log[|p3.log| - 1] == r.log[|p.log|..][|p3.log| - 1 - |p.log|];
  }

  /** The cleanup does nothing but release: every effect it adds is a release. */
  lemma ReleaseResourcesOnlyReleases(p: Player)
    ensures var r := ReleaseResources(p);
            forall i :: |p.log| <= i < |r.log| ==> r.log[i].IsRelease()
  {
    var p1 := DropExtractor(p);
    var p2 := DropNextExtractor(p1);
    var p3 := DropCodec(p2);
    var r := DropSink(p3);
    ReleasesAfter(p.log, p1.log, |p.log|);
    ReleasesAfter(p1.log, p2.log, |p.log|);
    ReleasesAfter(p2.log, p3.log, |p.log|);
    ReleasesAfter(p3.log, r.log, |p.log|);
  }

  /** Appending only releases keeps "only releases from index n on". */
  lemma ReleasesAfter(log: seq<Effect>, log': seq<Effect>, n: nat)
    requires n <= |log| <= |log'| && log <= log'
    requires forall i :: n <= i < |log| ==> log[i].IsRelease()
    requires forall i :: |log| <= i < |log'| ==> log'[i].IsRelease()
    ensures forall i :: n <= i < |log'| ==> log'[i].IsRelease()
  {
    forall i | n <= i < |log'|
      ensures log'[i].IsRelease()
    {
      if i < |log| {
        assert log'[i] == log[i];
      }
    }
  }

  function DropExtractor(p: Player): (r: Player)
    ensures r.extractor.None?
    ensures r.(extractor := p.extractor, log := p.log) == p
    ensures r.log == if p.extractor.Some? then p.log + [ReleaseExtractor(p.extractor.value.asset)] else p.log
    ensures forall k :: Acquired(r.log, k) == Acquired(p.log, k)
    ensures forall k :: Released(r.log, k) == Released(p.log, k) + (if k == ExtractorKind then Holds(p.extractor) else 0)
  {
    if p.extractor.Some? then Emit(p, ReleaseExtractor(p.extractor.value.asset)).(extractor := None) else p
  }

  function DropNextExtractor(p: Player): (r: Player)
    ensures r.nextExtractor.None?
    ensures r.(nextExtractor := p.nextExtractor, log := p.log) == p
    ensures r.log == if p.nextExtractor.Some? then p.log + [ReleaseExtractor(p.nextExtractor.value.asset)] else p.log
    ensures forall k :: Acquired(r.log, k) == Acquired(p.log, k)
    ensures forall k :: Released(r.log, k) == Released(p.log, k) + (if k == ExtractorKind then Holds(p.nextExtractor) else 0)
  {
    if p.nextExtractor.Some? then Emit(p, ReleaseExtractor(p.nextExtractor.value.asset)).(nextExtractor := None) else p
  }

  function DropCodec(p: Player): (r: Player)
    ensures r.codec.None?
    ensures r.(codec := p.codec, log := p.log) == p
    ensures r.log == if p.codec.Some? then p.log + [ReleaseCodec(p.codec.value.asset)] else p.log
    ensures forall k :: Acquired(r.log, k) == Acquired(p.log, k)
    ensures forall k :: Released(r.log, k) == Released(p.log, k) + (if k == CodecKind then Holds(p.codec) else 0)
  {
    if p.codec.Some? then Emit(p, ReleaseCodec(p.codec.value.asset)).(codec := None) else p
  }

  function DropSink(p: Player): (r: Player)
    ensures r.audioTrack.None?
    ensures r.(audioTrack := p.audioTrack, log := p.log) == p
    ensures r.log == if p.audioTrack.Some? then p.log + [ReleaseSink] else p.log
    ensures forall k :: Acquired(r.log, k) == Acquired(p.log, k)
    ensures forall k :: Released(r.log, k) == Released(p.log, k) + (if k == SinkKind then Holds(p.audioTrack) else 0)
  {
    if p.audioTrack.Some? then Emit(p, ReleaseSink).(audioTrack := None) else p
  }
}

=== FILE: session.dfy ===
/**
  The whole playback session, as run on the background worker: for each
  asset, check cancellation, advance to the asset, create and start its
  decoder, map its channel count, construct the sink on the first asset only,
  run the decode loop, then release the decoder and fold the positions. Any
  way out of the session (no more assets, cancellation, an IOException, the
  unsupported-channel exception) goes through the `finally` cleanup.
 */
module Session {
  import opened JavaInt
  import opened AudioFormat
  import opened PlayerState
  import opened Extractors
  import opened DecodeLoop

  /**
    The platform's answers for one pass of the outer loop: isCancelled() at
    its guard, whether opening the asset succeeds when it must be opened
    now, getMinBufferSize for the sink, and the ticks of the decode loop.
   */
  datatype Round = Round(cancelled: bool, opens: bool, minBufferSize: int32, ticks: seq<Tick>)

  datatype End =
    | Finished
    | SessionCancelled
    | IoFailure
      /** The IllegalArgumentException of the channel-count switch, which is not caught. */
    | UnsupportedChannelCount(channelCount: int32)
      /** The script ended while the session would go on. */
    | Unfinished

  datatype SessionResult = SessionResult(end: End, player: Player)

  datatype SetupResult =
    | Configured(player: Player)
    | SetupThrew(player: Player, channelCount: int32)

  /** The format of the current asset's track. */
  function CurrentFormat(p: Player): TrackFormat
    requires 0 <= p.currentAsset < |p.assets|
  {
    p.assets[p.currentAsset].format
  }

  /**
    Per-asset setup. The decoder is created and started first, and only then
    is the channel count checked, so an unsupported count throws with the new
    decoder held and no sink touched. A supported count constructs the sink,
    sized for that format, if there is none yet; an existing sink is kept
    exactly as it is, even if this asset's format differs.
   */
  function SetupAsset(p: Player, minBufferSize: int32): (r: SetupResult)
    requires 0 <= p.currentAsset < |p.assets|
    ensures r.player.codec == Some(Codec(p.currentAsset))
    ensures p.log < r.player.log && r.player.log[|p.log|] == StartCodec(p.currentAsset)
    ensures r.SetupThrew? <==> !SupportedChannelCount(CurrentFormat(p).channelCount)
    ensures r.SetupThrew? ==>
              r.channelCount == CurrentFormat(p).channelCount
              && r.player.log == p.log + [StartCodec(p.currentAsset)]
              && r.player.audioTrack == p.audioTrack
    ensures r.Configured? && p.audioTrack.Some? ==>
              r.player.audioTrack == p.audioTrack && r.player.log == p.log + [StartCodec(p.currentAsset)]
    ensures r.Configured? && p.audioTrack.None? ==>
              var f := CurrentFormat(p);
              var sink := Sink(f.sampleRate, ChannelConfig(f.channelCount).layout,
                               SizeAudioBuffer(f.sampleRate, f.channelCount, minBufferSize).bufferSize);
              r.player.audioTrack == Some(sink)
              && r.player.log == p.log + [StartCodec(p.currentAsset), StartSink(sink)]
    ensures r.player.(codec := p.codec, audioTrack := p.audioTrack, log := p.log) == p
    ensures forall k :: Released(r.player.log, k) == Released(p.log, k)
    ensures forall k :: Acquired(r.player.log, k) == Acquired(p.log, k) +
              (if k == CodecKind then 1 else if k == SinkKind && p.audioTrack.None? && r.Configured? then 1 else 0)
  {
    var f := CurrentFormat(p);
    var p1 := Emit(p, StartCodec(p.currentAsset)).(codec := Some(Codec(p.currentAsset)));
    match ChannelConfig(f.channelCount)
    case Unsupported(count) => SetupThrew(p1, count)
    case Layout(layout) =>
      if p1.audioTrack.None? then
        var sizes := SizeAudioBuffer(f.sampleRate, f.channelCount, minBufferSize);
        var sink := Sink(f.sampleRate, layout, sizes.bufferSize);
        Configured(Emit(p1, StartSink(sink)).(audioTrack := Some(sink)))
      else
        Configured(p1)
  }

  /** End of an asset: the decoder is stopped and released, then the positions are folded. */
  function FinishAsset(p: Player): (r: Player)
    ensures r.codec.None?
    ensures p.codec.Some? ==> r.log == p.log + [ReleaseCodec(p.codec.value.asset)]
    ensures AbsoluteExtractedPositionUs(r) == AbsoluteExtractedPositionUs(p)
    ensures AbsoluteDecodedPositionUs(r) == AbsoluteDecodedPositionUs(p)
    ensures r.currentExtractorPositionUs == 0 && r.currentCodecPositionUs == 0
    ensures forall k :: Acquired(r.log, k) == Acquired(p.log, k)
    ensures forall k :: Released(r.log, k) == Released(p.log, k) + (if k == CodecKind then Holds(p.codec) else 0)
    ensures r.(codec := p.codec, log := p.log,
               currentExtractorPositionUs := p.currentExtractorPositionUs,
               absoluteExtractedPositionUs := p.absoluteExtractedPositionUs,
               currentCodecPositionUs := p.currentCodecPositionUs,
               absoluteDecodedPositionUs := p.absoluteDecodedPositionUs) == p
  {
    FoldPositions(DropCodec(p))
  }

  /** The `finally` cleanup on the way out of the session. */
  function Stop(end: End, p: Player): (r: SessionResult)
    ensures r.end == end && HoldsNothing(r.player)
    ensures p.log <= r.player.log
    ensures AbsoluteExtractedPositionUs(r.player) == AbsoluteExtractedPositionUs(p)
    ensures AbsoluteDecodedPositionUs(r.player) == AbsoluteDecodedPositionUs(p)
  {
    SessionResult(end, ReleaseResources(p))
  }

  /**
    The state at the top of the outer loop: handles consistent, no decoder
    held, nothing leaked so far, and no sink released yet (so the sink, if
    any, is the only one ever constructed).
   */
  ghost predicate Ready(p: Player) {
    && Valid(p)
    && p.codec.None?
    && Balanced(p)
    && Released(p.log, SinkKind) == 0
  }

  /** Reported times of every round's decode loop are non-negative. */
  predicate NonNegativeRounds(rounds: seq<Round>) {
    forall i, j :: 0 <= i < |rounds| && 0 <= j < |rounds[i].ticks| ==> NonNegativeTimes(rounds[i].ticks[j])
  }

  datatype RoundResult = Continue(next: Player) | Ended(result: SessionResult)

  /**
    One pass of the outer loop: the cancellation check and advancing to the
    next asset, then setup and decoding. Leaving the session on the way
    releases every handle.
   */
  function PlayRound(p: Player, round: Round): (r: RoundResult)
    requires p.currentAsset >= -1
    ensures r.Continue? ==> r.next.currentAsset == p.currentAsset + 1 && r.next.codec.None?
    ensures r.Ended? && !r.result.end.Unfinished? ==> HoldsNothing(r.result.player)
  {
    if round.cancelled then Ended(Stop(SessionCancelled, p))
    else AdvanceRound(p, round)
  }

  /** Advancing to the next asset; running out of assets or failing to open one ends the session. */
  function AdvanceRound(p: Player, round: Round): (r: RoundResult)
    requires p.currentAsset >= -1
    ensures r.Continue? ==> r.next.currentAsset == p.currentAsset + 1 && r.next.codec.None?
    ensures r.Ended? && !r.result.end.Unfinished? ==> HoldsNothing(r.result.player)
  {
    match InitNextExtractor(p, round.opens)
    case Exhausted(q) => Ended(Stop(Finished, q))
    case OpenFailed(q) => Ended(Stop(IoFailure, q))
    case Opened(q) => SetupRound(q, round.minBufferSize, round.ticks)
  }

  /** Setup of the current asset; an unsupported channel count ends the session. */
  function SetupRound(q: Player, minBufferSize: int32, ticks: seq<Tick>): (r: RoundResult)
    requires 0 <= q.currentAsset < |q.assets|
    ensures r.Continue? ==> r.next.currentAsset == q.currentAsset && r.next.codec.None?
    ensures r.Ended? && !r.result.end.Unfinished? ==> HoldsNothing(r.result.player)
  {
    match SetupAsset(q, minBufferSize)
    case SetupThrew(q1, count) => Ended(Stop(UnsupportedChannelCount(count), q1))
    case Configured(q1) => DecodeRound(q1, ticks)
  }

  /**
    The decode loop of a set-up asset followed by the end-of-asset step; a
    read failure ends the session and an exhausted script leaves it
    unfinished.
   */
  function DecodeRound(q1: Player, ticks: seq<Tick>): (r: RoundResult)
    requires q1.currentAsset >= 0
    ensures r.Continue? ==> r.next.currentAsset == q1.currentAsset && r.next.codec.None?
    ensures r.Ended? && !r.result.end.Unfinished? ==> HoldsNothing(r.result.player)
  {
    RunLoopKeeps(Begin(q1), ticks);
    match RunLoop(Begin(q1), ticks)
    case LoopThrew(q2) => Ended(Stop(IoFailure, q2))
    case OutOfTicks(s, _) => Ended(SessionResult(Unfinished, s.player))
    case Exited(s, _, _) => Continue(FinishAsset(s.player))
  }

  /** No platform object is held. */
  predicate HoldsNothing(p: Player) {
    p.extractor.None? && p.nextExtractor.None? && p.codec.None? && p.audioTrack.None?
  }

  /**
    The outer loop of the session over a script of rounds. Leaving the
    session by any route other than the end of the script releases every
    handle.
   */
  function RunSession(p: Player, rounds: seq<Round>): (r: SessionResult)
    requires p.currentAsset >= -1
    decreases |rounds|
    ensures !r.end.Unfinished? ==> HoldsNothing(r.player)
  {
    if |rounds| == 0 then SessionResult(Unfinished, p)
    else
      match PlayRound(p, rounds[0])
      case Ended(r) => r
      case Continue(next) => RunSession(next, rounds[1..])
  }

  /**
    What a session guarantees about where it ended up, relative to a start
    with log `log0` and sink `track0`: the log only grew; when it ended by
    any route but the end of the script, every extractor, decoder and sink
    acquired has been released; at most one sink was ever constructed; the
    handle invariant holds; and a sink held at the start is still the one
    held while the session runs.
   */
  ghost predicate EndKept(log0: seq<Effect>, track0: Option<Sink>, r: SessionResult) {
    var q := r.player;
    && log0 <= q.log
    && (!r.end.Unfinished? ==> forall k :: Acquired(q.log, k) == Released(q.log, k))
    && Acquired(q.log, SinkKind) <= 1
    && Valid(q)
    && (track0.Some? && r.end.Unfinished? ==> q.audioTrack == track0)
  }

  /** A round either ends as `EndKept` says or comes back ready with the same sink. */
  ghost predicate RoundKept(log0: seq<Effect>, track0: Option<Sink>, r: RoundResult) {
    match r
    case Continue(next) =>
      Ready(next) && log0 <= next.log && (track0.Some? ==> next.audioTrack == track0)
    case Ended(res) => EndKept(log0, track0, res)
  }

  /**
    From a ready state, a session leaves nothing leaked when it ends,
    constructs at most one sink, keeps the handle invariant, and keeps the
    sink it started with for as long as it runs.
   */
  lemma {:induction false} SessionReleasesEverything(p: Player, rounds: seq<Round>)
    requires Ready(p)
    decreases |rounds|
    ensures EndKept(p.log, p.audioTrack, RunSession(p, rounds))
  {
    if |rounds| == 0 {
      assert Acquired(p.log, SinkKind) == Holds(p.audioTrack) by { assert Balance(p, SinkKind) == 0; }
    } else {
      RoundKeeps(p, rounds[0]);
      match PlayRound(p, rounds[0])
      case Ended(r) =>
      case Continue(next) =>
        SessionReleasesEverything(next, rounds[1..]);
    }
  }

  /** One round from a ready state keeps everything `RoundKept` states. */
  lemma RoundKeeps(p: Player, round: Round)
    requires Ready(p)
    ensures RoundKept(p.log, p.audioTrack, PlayRound(p, round))
  {
    assert Acquired(p.log, SinkKind) == Holds(p.audioTrack) by { assert Balance(p, SinkKind) == 0; }
    if round.cancelled {
      StoppingKeeps(SessionCancelled, p, p.log, p.audioTrack);
    } else {
      AdvanceRoundKeeps(p, round);
    }
  }

  /** Advancing from a ready state keeps everything `RoundKept` states. */
  lemma AdvanceRoundKeeps(p: Player, round: Round)
    requires Ready(p)
    ensures RoundKept(p.log, p.audioTrack, AdvanceRound(p, round))
  {
    var init := InitNextExtractor(p, round.opens);
    var q := init.player;
    AdvanceKeeps(p, round.opens);
    match init
    case Exhausted(_) =>
      StoppingKeeps(Finished, q, p.log, p.audioTrack);
    case OpenFailed(_) =>
      StoppingKeeps(IoFailure, q, p.log, p.audioTrack);
    case Opened(_) =>
      SetupRoundKeeps(q, round.minBufferSize, round.ticks);
      RoundKeptFromLater(p.log, p.audioTrack, q.log, q.audioTrack, SetupRound(q, round.minBufferSize, round.ticks));
  }

  /** The cleanup ends a session as `EndKept` states, from any balanced state. */
  lemma StoppingKeeps(end: End, p: Player, log0: seq<Effect>, track0: Option<Sink>)
    requires !end.Unfinished?
    requires Valid(p) && Balanced(p) && log0 <= p.log && Acquired(p.log, SinkKind) <= 1
    ensures EndKept(log0, track0, Stop(end, p))
  {
    StopKeeps(end, p);
  }

  /** Setup after advancing keeps everything `RoundKept` states. */
  lemma SetupRoundKeeps(q: Player, minBufferSize: int32, ticks: seq<Tick>)
    requires 0 <= q.currentAsset < |q.assets| && q.extractor.Some?
    requires Valid(q) && Balanced(q) && q.codec.None?
    requires Released(q.log, SinkKind) == 0 && Acquired(q.log, SinkKind) == Holds(q.audioTrack)
    ensures RoundKept(q.log, q.audioTrack, SetupRound(q, minBufferSize, ticks))
  {
    var setup := SetupAsset(q, minBufferSize);
    var q1 := setup.player;
    SetupKeeps(q, minBufferSize);
    match setup
    case SetupThrew(_, count) =>
      assert SetupRound(q, minBufferSize, ticks) == Ended(Stop(UnsupportedChannelCount(count), q1));
      StoppingKeeps(UnsupportedChannelCount(count), q1, q.log, q.audioTrack);
    case Configured(_) =>
      assert SetupRound(q, minBufferSize, ticks) == DecodeRound(q1, ticks);
      DecodeRoundKeeps(q1, ticks);
      RoundKeptFromLater(q.log, q.audioTrack, q1.log, q1.audioTrack, DecodeRound(q1, ticks));
  }

  /**
    An unsupported channel count ends the session right after the decoder
    was created and started: the decoder start is the first thing the round
    logs, everything after it is a release (so no sink is constructed and
    nothing is decoded), the decoder is among the releases, and nothing is
    held at the end.
   */
  lemma UnsupportedChannelCountReleasesDecoder(q: Player, minBufferSize: int32, ticks: seq<Tick>)
    requires 0 <= q.currentAsset < |q.assets|
    requires !SupportedChannelCount(CurrentFormat(q).channelCount)
    ensures var r := SetupRound(q, minBufferSize, ticks);
            && r.Ended?
            && r.result.end == UnsupportedChannelCount(CurrentFormat(q).channelCount)
            && HoldsNothing(r.result.player)
            && var log := r.result.player.log;
               && q.log < log
               && log[|q.log|] == StartCodec(q.currentAsset)
               && (forall i :: |q.log| < i < |log| ==> log[i].IsRelease())
               && ReleaseCodec(q.currentAsset) in log[|q.log| + 1..]
  {
    var q1 := SetupAsset(q, minBufferSize).player;
    ReleaseResourcesOnlyReleases(q1);
    ReleaseResourcesReleasesCodec(q1);
    var log := ReleaseResources(q1).log;
    assert log[|q1.log|..] == log[|q.log| + 1..];
  }

  /** Decoding a set-up asset keeps everything `RoundKept` states. */
  lemma DecodeRoundKeeps(q1: Player, ticks: seq<Tick>)
    requires q1.currentAsset >= 0
    requires Valid(q1) && Balanced(q1) && q1.audioTrack.Some?
    requires Released(q1.log, SinkKind) == 0 && Acquired(q1.log, SinkKind) == 1
    ensures RoundKept(q1.log, q1.audioTrack, DecodeRound(q1, ticks))
  {
    var loop := RunLoop(Begin(q1), ticks);
    LoopKeepsReadiness(q1, ticks);
    if loop.LoopThrew? {
      StoppingKeeps(IoFailure, loop.Final(), q1.log, q1.audioTrack);
    }
  }

  /** What a round keeps from a later point it also keeps from an earlier one with the same sink. */
  lemma RoundKeptFromLater(log0: seq<Effect>, track0: Option<Sink>, log1: seq<Effect>, track1: Option<Sink>, r: RoundResult)
    requires log0 <= log1 && (track0.Some? ==> track1 == track0)
    requires RoundKept(log1, track1, r)
    ensures RoundKept(log0, track0, r)
  {
  }

  /** Advancing from a ready state keeps everything but the decoder-free part of readiness. */
  lemma AdvanceKeeps(p: Player, opens: bool)
    requires Ready(p)
    ensures var q := InitNextExtractor(p, opens).player;
            && p.log <= q.log && Valid(q) && Balanced(q) && q.codec.None? && q.audioTrack == p.audioTrack
            && Released(q.log, SinkKind) == 0 && Acquired(q.log, SinkKind) == Holds(q.audioTrack)
  {
    InitNextExtractorKeepsInvariants(p, opens);
    var q := InitNextExtractor(p, opens).player;
    assert Balance(p, SinkKind) == 0;
    assert Balanced(q) by {
      forall k ensures Balance(q, k) == 0 { assert Balance(p, k) == 0; }
    }
  }

  /** Setup after advancing keeps the balance, holds a sink, and keeps an existing sink. */
  lemma SetupKeeps(q: Player, minBufferSize: int32)
    requires 0 <= q.currentAsset < |q.assets| && q.extractor.Some?
    requires Valid(q) && Balanced(q) && q.codec.None?
    requires Released(q.log, SinkKind) == 0 && Acquired(q.log, SinkKind) == Holds(q.audioTrack)
    ensures var q1 := SetupAsset(q, minBufferSize).player;
            && q.log <= q1.log && Valid(q1) && Balanced(q1)
            && Released(q1.log, SinkKind) == 0
            && Acquired(q1.log, SinkKind) == Holds(q1.audioTrack)
            && (q.audioTrack.Some? ==> q1.audioTrack == q.audioTrack)
            && (SetupAsset(q, minBufferSize).Configured? ==> q1.audioTrack.Some?)
  {
    var setup := SetupAsset(q, minBufferSize);
    var q1 := setup.player;
    assert Acquired(q1.log, SinkKind) == Acquired(q.log, SinkKind) + Holds(q1.audioTrack) - Holds(q.audioTrack);
    StartingDecoderKeeps(q, q1);
  }

  /**
    Starting a decoder for the current asset, and possibly a sink, keeps the
    handle invariant and the balance.
   */
  lemma StartingDecoderKeeps(q: Player, q1: Player)
    requires Valid(q) && Balanced(q) && q.extractor.Some? && q.codec.None?
    requires q1.(codec := q.codec, audioTrack := q.audioTrack, log := q.log) == q
    requires q1.codec == Some(Codec(q.currentAsset))
    requires forall k :: Released(q1.log, k) == Released(q.log, k)
    requires Acquired(q1.log, ExtractorKind) == Acquired(q.log, ExtractorKind)
    requires Acquired(q1.log, CodecKind) == Acquired(q.log, CodecKind) + 1
    requires Acquired(q1.log, SinkKind) == Acquired(q.log, SinkKind) + Holds(q1.audioTrack) - Holds(q.audioTrack)
    ensures Valid(q1) && Balanced(q1)
  {
    forall k ensures Balance(q1, k) == 0 {
      assert Balance(q, k) == 0;
      assert Released(q1.log, k) == Released(q.log, k);
    }
  }

  /** The decode loop and the end-of-asset step bring a set-up asset back to a ready state. */
  lemma LoopKeepsReadiness(q1: Player, ticks: seq<Tick>)
    requires Valid(q1) && Balanced(q1) && q1.audioTrack.Some?
    requires Released(q1.log, SinkKind) == 0 && Acquired(q1.log, SinkKind) == 1
    ensures var loop := RunLoop(Begin(q1), ticks);
            var q2 := loop.Final();
            && q1.log <= q2.log && Valid(q2) && Balanced(q2) && q2.audioTrack == q1.audioTrack
            && Released(q2.log, SinkKind) == 0 && Acquired(q2.log, SinkKind) == 1
            && (loop.Exited? ==> Ready(FinishAsset(q2)) && q2.log <= FinishAsset(q2).log
                                 && FinishAsset(q2).audioTrack == q1.audioTrack)
  {
    RunLoopKeeps(Begin(q1), ticks);
    var q2 := RunLoop(Begin(q1), ticks).Final();
    assert Balanced(q2) by {
      forall k ensures Balance(q2, k) == 0 { assert Balance(q1, k) == 0; }
    }
    FinishKeepsReadiness(q2);
  }

  /** The end-of-asset step from a balanced state holding a decoder gives a ready state. */
  lemma FinishKeepsReadiness(q2: Player)
    requires Valid(q2) && Balanced(q2) && Released(q2.log, SinkKind) == 0
    ensures Ready(FinishAsset(q2)) && q2.log <= FinishAsset(q2).log
    ensures FinishAsset(q2).audioTrack == q2.audioTrack
  {
    var next := FinishAsset(q2);
    assert Balanced(next) by {
      forall k ensures Balance(next, k) == 0 { assert Balance(q2, k) == 0; }
    }
  }

  /**
    With non-negative reported times and non-negative starting offsets, the
    accumulated positions never decrease over a session.
   */
  lemma {:induction false} SessionPositionsNeverDecrease(p: Player, rounds: seq<Round>)
    requires p.currentAsset >= -1
    requires NonNegativeRounds(rounds)
    requires p.currentExtractorPositionUs >= 0 && p.currentCodecPositionUs >= 0
    decreases |rounds|
    ensures var r := RunSession(p, rounds);
            && r.player.absoluteExtractedPositionUs >= p.absoluteExtractedPositionUs
            && r.player.absoluteDecodedPositionUs >= p.absoluteDecodedPositionUs
  {
    if |rounds| == 0 {
      return;
    }
    assert forall j :: 0 <= j < |rounds[0].ticks| ==> NonNegativeTimes(rounds[0].ticks[j]);
    RoundPositionsNeverDecrease(p, rounds[0]);
    match PlayRound(p, rounds[0])
    case Ended(_) =>
    case Continue(next) =>
      forall i, j | 0 <= i < |rounds[1..]| && 0 <= j < |rounds[1..][i].ticks|
        ensures NonNegativeTimes(rounds[1..][i].ticks[j])
      {
        assert rounds[1..][i] == rounds[i + 1];
      }
      SessionPositionsNeverDecrease(next, rounds[1..]);
  }

  /** Where a round leaves the player, whether the session goes on or not. */
  function AfterRound(r: RoundResult): Player {
    if r.Continue? then r.next else r.result.player
  }

  /** Neither accumulated position went back, and both offsets are non-negative. */
  predicate MovedForward(p: Player, q: Player) {
    && q.absoluteExtractedPositionUs >= p.absoluteExtractedPositionUs
    && q.absoluteDecodedPositionUs >= p.absoluteDecodedPositionUs
    && q.currentExtractorPositionUs >= 0 && q.currentCodecPositionUs >= 0
  }

  /** One round with non-negative reported times never moves the accumulated positions back. */
  lemma RoundPositionsNeverDecrease(p: Player, round: Round)
    requires p.currentAsset >= -1
    requires forall j :: 0 <= j < |round.ticks| ==> NonNegativeTimes(round.ticks[j])
    requires p.currentExtractorPositionUs >= 0 && p.currentCodecPositionUs >= 0
    ensures MovedForward(p, AfterRound(PlayRound(p, round)))
  {
    if !round.cancelled {
      match InitNextExtractor(p, round.opens)
      case Exhausted(_) =>
      case OpenFailed(_) =>
      case Opened(q) => SetupRoundPositions(q, round.minBufferSize, round.ticks);
    }
  }

  /** Setup and decoding with non-negative reported times never move the accumulated positions back. */
  lemma SetupRoundPositions(q: Player, minBufferSize: int32, ticks: seq<Tick>)
    requires 0 <= q.currentAsset < |q.assets|
    requires forall j :: 0 <= j < |ticks| ==> NonNegativeTimes(ticks[j])
    requires q.currentExtractorPositionUs >= 0 && q.currentCodecPositionUs >= 0
    ensures MovedForward(q, AfterRound(SetupRound(q, minBufferSize, ticks)))
  {
    match SetupAsset(q, minBufferSize)
    case SetupThrew(_, _) =>
    case Configured(q1) => DecodeRoundPositions(q1, ticks);
  }

  /** Decoding with non-negative reported times never moves the accumulated positions back. */
  lemma DecodeRoundPositions(q1: Player, ticks: seq<Tick>)
    requires q1.currentAsset >= 0
    requires forall j :: 0 <= j < |ticks| ==> NonNegativeTimes(ticks[j])
    requires q1.currentExtractorPositionUs >= 0 && q1.currentCodecPositionUs >= 0
    ensures MovedForward(q1, AfterRound(DecodeRound(q1, ticks)))
  {
    RunLoopKeeps(Begin(q1), ticks);
    RunLoopOffsetsStayNonNegative(Begin(q1), ticks);
  }

  /**
    One decoder at a time: from a ready start whose log never had two
    decoders outstanding, the whole session never has two decoders
    outstanding either, because each asset's decoder is released before the
    next asset's is created.
   */
  lemma {:induction false} SessionOneDecoderAtATime(p: Player, rounds: seq<Round>)
    requires Ready(p) && AtMostOneOutstanding(p.log, CodecKind)
    decreases |rounds|
    ensures AtMostOneOutstanding(RunSession(p, rounds).player.log, CodecKind)
  {
    if |rounds| > 0 {
      RoundKeeps(p, rounds[0]);
      RoundStartsOneDecoder(p, rounds[0]);
      var r := PlayRound(p, rounds[0]);
      assert Acquired(p.log, CodecKind) == Released(p.log, CodecKind) by { assert Balance(p, CodecKind) == 0; }
      OutstandingStaysAtMostOne(p.log, AfterRound(r).log, CodecKind);
      match r
      case Ended(_) =>
      case Continue(next) =>
        SessionOneDecoderAtATime(next, rounds[1..]);
    }
  }

  /** A round creates at most one decoder. */
  lemma RoundStartsOneDecoder(p: Player, round: Round)
    requires p.currentAsset >= -1
    ensures var q := AfterRound(PlayRound(p, round));
            p.log <= q.log && Acquired(q.log, CodecKind) <= Acquired(p.log, CodecKind) + 1
  {
    if round.cancelled {
      ReleaseResourcesCounts(p, CodecKind);
    } else {
      AdvanceRoundStartsOneDecoder(p, round);
    }
  }

  /** Advancing, setup and decoding create at most one decoder. */
  lemma AdvanceRoundStartsOneDecoder(p: Player, round: Round)
    requires p.currentAsset >= -1
    ensures var q := AfterRound(AdvanceRound(p, round));
            p.log <= q.log && Acquired(q.log, CodecKind) <= Acquired(p.log, CodecKind) + 1
  {
    var init := InitNextExtractor(p, round.opens);
    var q := init.player;
    InitNextExtractorKeepsInvariants(p, round.opens);
    assert Acquired(q.log, CodecKind) == Acquired(p.log, CodecKind);
    if init.Opened? {
      assert AdvanceRound(p, round) == SetupRound(q, round.minBufferSize, round.ticks);
      SetupRoundStartsOneDecoder(q, round.minBufferSize, round.ticks);
    } else {
      assert AfterRound(AdvanceRound(p, round)) == ReleaseResources(q);
      ReleaseResourcesCounts(q, CodecKind);
    }
  }

  /** Setup and decoding create exactly the one decoder of the setup. */
  lemma SetupRoundStartsOneDecoder(q: Player, minBufferSize: int32, ticks: seq<Tick>)
    requires 0 <= q.currentAsset < |q.assets|
    ensures var q2 := AfterRound(SetupRound(q, minBufferSize, ticks));
            q.log <= q2.log && Acquired(q2.log, CodecKind) <= Acquired(q.log, CodecKind) + 1
  {
    var setup := SetupAsset(q, minBufferSize);
    var q1 := setup.player;
    assert Acquired(q1.log, CodecKind) == Acquired(q.log, CodecKind) + 1;
    if setup.Configured? {
      assert SetupRound(q, minBufferSize, ticks) == DecodeRound(q1, ticks);
      DecodeRoundStartsNoDecoder(q1, ticks);
    } else {
      assert AfterRound(SetupRound(q, minBufferSize, ticks)) == ReleaseResources(q1);
      ReleaseResourcesCounts(q1, CodecKind);
    }
  }

  /** Decoding and the end-of-asset step create no decoder. */
  lemma DecodeRoundStartsNoDecoder(q1: Player, ticks: seq<Tick>)
    requires q1.currentAsset >= 0
    ensures var q2 := AfterRound(DecodeRound(q1, ticks));
            q1.log <= q2.log && Acquired(q2.log, CodecKind) == Acquired(q1.log, CodecKind)
  {
    RunLoopKeeps(Begin(q1), ticks);
    var q2 := RunLoop(Begin(q1), ticks).Final();
    assert q1.log <= q2.log && Acquired(q2.log, CodecKind) == Acquired(q1.log, CodecKind);
    match RunLoop(Begin(q1), ticks)
    case LoopThrew(_) =>
      assert AfterRound(DecodeRound(q1, ticks)) == ReleaseResources(q2);
      ReleaseResourcesCounts(q2, CodecKind);
    case OutOfTicks(_, _) =>
      assert AfterRound(DecodeRound(q1, ticks)) == q2;
    case Exited(_, _, _) =>
      assert AfterRound(DecodeRound(q1, ticks)) == FinishAsset(q2);
  }

  /** What the cleanup guarantees to a session result, in the terms RunSession states. */
  lemma StopKeeps(end: End, p: Player)
    ensures var r := Stop(end, p).player;
            && p.log <= r.log && r.assets == p.assets
            && r.absoluteExtractedPositionUs == p.absoluteExtractedPositionUs
            && r.absoluteDecodedPositionUs == p.absoluteDecodedPositionUs
            && (Valid(p) ==> Valid(r))
            && (Balanced(p) ==> forall k :: Acquired(r.log, k) == Released(r.log, k))
            && Acquired(r.log, SinkKind) == Acquired(p.log, SinkKind)
  {
    ReleaseResourcesReleasesEachHandleOnce(p);
    var r := Stop(end, p).player;
    if Balanced(p) {
      forall k
        ensures Acquired(r.log, k) == Released(r.log, k)
      {
        assert Balance(p, k) == 0;
      }
    }
  }

  /**
    A session of the given assets from the freshly constructed player. When
    it ends, by whatever route, every extractor, decoder and sink acquired
    has been released and none is held; at most one sink was ever
    constructed; at no point were two decoders live; and with non-negative
    reported times both accumulated positions are non-negative.
   */
  lemma PlayReleasesEverything(assets: seq<Asset>, rounds: seq<Round>)
    ensures var r := RunSession(Initial(assets), rounds);
            && (!r.end.Unfinished? ==>
                  HoldsNothing(r.player) && forall k :: Acquired(r.player.log, k) == Released(r.player.log, k))
            && Acquired(r.player.log, SinkKind) <= 1
            && AtMostOneOutstanding(r.player.log, CodecKind)
            && Valid(r.player)
            && (NonNegativeRounds(rounds) ==>
                  r.player.absoluteExtractedPositionUs >= 0 && r.player.absoluteDecodedPositionUs >= 0)
  {
    var p := Initial(assets);
    SessionReleasesEverything(p, rounds);
    assert AtMostOneOutstanding(p.log, CodecKind) by {
      forall n | 0 <= n <= |p.log|
        ensures Acquired(p.log[..n], CodecKind) <= Released(p.log[..n], CodecKind) + 1
      {
        assert p.log[..n] == [];
      }
    }
    SessionOneDecoderAtATime(p, rounds);
    if NonNegativeRounds(rounds) {
      SessionPositionsNeverDecrease(p, rounds);
    }
  }
}
